=== FILE: README.md ===
# enguino sensor pipeline and LED display driver, modelled in Dafny

This project models two parts of the enguino engine monitor.

**Sensor pipeline (`enguino/sensors.h`).** This part covers:
- the sample store that the interrupt handlers and the periodic tick keep up to date: the ADC sample matrix, the eight-slot tachometer ring, the fuel-flow counters with their four-slot rate window, and the hobbs prescaler;
- the persisted hobbs and fuel totals, with their dirty flag;
- the reader, which turns a sensor descriptor into a calibrated value or FAULT;
- the alert classifier.

**LED display driver (`enguino/printLED.h`).** This part covers:
- the 17-byte frame that is rebuilt for each print;
- the digit writers;
- the status indicators;
- the text, numeric and fuel print routines;
- the I2C write transaction and the display set-up sequence.

The target is an 8-bit AVR, so the widths are as follows: `int` is 16 bits, `word` is an unsigned 16-bit value, `byte` is 8 bits and `long` is 32 bits. The model uses unbounded integers. Every place where the C code narrows a value or lets it wrap goes through `ToUint8`, `ToUint16` or `ToInt16` in `platform.dfy`. C's truncating division is `CDiv`.

Each routine is a pure function on immutable values:
- A `SampleStore.Store` record holds the C globals and the statics of the sensor side.
- Each print routine returns the frame it built and the bus after the frame was sent.
- The bus (`LedBus.Bus`) is a list of acknowledge answers, consumed in order, together with the trace of start, byte and stop events. An exhausted list answers "not acknowledged", which is how an absent device answers.
- Interrupt handlers and `noInterrupts()` blocks are atomic steps.
- `analogRead`, `micros()` and the thermocouple temperatures `tcTemp` are parameters.

Some names are defined outside the modelled files:
- `FAULT`, `DUAL_BIT`, the sensor channel IDs, `divisor`, the alert bits, `TACH_DIVIDER` and `I2C_WRITE` are constants declared without a value, so every proof holds for any value, with three exceptions. `TACH_DIVIDER` is assumed positive, because the tachometer handler divides by it. `LedPrint.HalfExamples` requires `FAULT < 0`, so that none of its sample values can be the FAULT word. `SensorReader.LowAlertExact` and `SensorReader.HighAlertExact` require `SeparateBits()`: the four threshold bits are non-zero and pairwise disjoint.
- `interpolate`, `multiplyAndScale` and `multiply` are the function fields of an `Arith` record, so every property holds whatever they compute.
- `sort` is replaced by an insertion sort (`Sort.SortInts`). Every property of the tachometer reading uses only its contract: the result is a sorted permutation of its input.

Files:
- `platform.dfy`: integer widths and the FAULT sentinel.
- `sort.dfy`: the sort contract and the uniqueness of sorted permutations.
- `sample_store.dfy`: the store and its transitions.
- `store_properties.dfy`: properties of sequences of transitions.
- `sensor_reader.dfy`: the tables, averaging, tachometer reading, `readSensor`, `scaleValue` and `alertState`.
- `led_bus.dfy`: `writeI2C`, `commandLED` and `printLEDSetup`.
- `led_display.dfy`: the frame layout, `printLEDRawDigits`, and a decoder that reads back what the four digit positions show.
- `led_print.dfy`: `printStatus`, `printLEDRawHalfDigits` and the `printLED` and `printLEDFuel` routines.

## Model

| member | source | states |
|---|---|---|
| Sort.SortInts | enguino/sensors.h:213 | The sorted copy of the ring is sorted, has the same length and holds the same multiset of values. |
| Sort.SortedUnique | enguino/sensors.h:213 | Two sorted sequences with the same multiset are equal, so the sort's result is determined by its contract alone. |
| SampleStore.PowerOn | enguino/sensors.h:24 | At power-on the prescaler holds half a hobbs interval (45 calls) and the fuel counter half a k-factor. The totals are those read back, and nothing is dirty. |
| SampleStore.UpdateFuelFlow | enguino/sensors.h:103-108 | The window index moves to the next of the four slots (mod 4). The rate is the running count minus that slot's old count, mod 2^16. The slot then takes the running count; the other three slots and all other fields are unchanged. |
| SampleStore.UpdateTach | enguino/sensors.h:110-117 | If a pulse was seen, the ring is unchanged. Otherwise all eight slots become 0. The pulse flag is false afterwards either way, and nothing else changes. |
| SampleStore.UpdateHobbs | enguino/sensors.h:119-128 | The byte prescaler counts down and nothing else changes until the call that takes it to 0. That call increments `hobbs`, or wraps it from 39999 to 0 and carries into `hobbs1k`. It also sets the dirty flag and reloads the prescaler, and leaves fuel alone. |
| SampleStore.HobbsAdvanceAddsOneTick | enguino/sensors.h:120-124 | The two hobbs counters act as one mixed-radix counter: an advance adds exactly one tick to `hobbs1k * 40000 + hobbs`, and keeps `hobbs` at or below 39999. |
| SampleStore.UpdateADC | enguino/sensors.h:153-158 | Column `adcIndex` of all 12 channels takes the new readings and the other three columns are unchanged. `adcIndex` advances mod 4, and the array shapes are kept. |
| SampleStore.ByteIncrementModulo | enguino/sensors.h:135 | Incrementing a byte index, which wraps at 256, advances it by one modulo a ring of 4 or 8 slots. |
| SampleStore.TachIRQ | enguino/sensors.h:130-138 | Exactly one ring slot, `rpmInx & 7`, takes the RPM for the elapsed interval. The other seven slots are unchanged, the ring index advances by one mod 8, the pulse flag is set, and the edge time is recorded. |
| SampleStore.FflowIRQ | enguino/sensors.h:140-150 | The running count always increments, mod 2^16. The bounded count increments, and restarts at 0 once it reaches the k-factor. Fuel drops by 1 exactly at that restart and only when it is positive, so it never goes below 0. Dirty is set exactly when fuel dropped. |
| StoreProperties.PulsesKeepWindow | enguino/sensors.h:140-150 | Any run of fuel-flow edges advances the running count by the number of edges, mod 2^16. It changes nothing outside the counters, the fuel total and the dirty flag. |
| StoreProperties.RateCountsLastFourWindows | enguino/sensors.h:103-108 | Starting just after a rate update, the four following half-second windows end with a rate equal to the number of edges in those four windows, mod 2^16. The index is back at its start. |
| StoreProperties.WindowStep | enguino/sensors.h:103-108 | One window of edges followed by the rate update moves the index to the next slot and stores the running count there. The rate is measured against the count that slot held before. |
| StoreProperties.PulsesBelowKFactor | enguino/sensors.h:141-143 | Edges that keep the bounded count below the k-factor only count: fuel and the dirty flag stay as they were. |
| StoreProperties.PulsesReachingKFactor | enguino/sensors.h:143-149 | The edge that brings the bounded count up to the k-factor restarts it at 0 and consumes one unit of fuel if any is left. It sets dirty exactly when it did. |
| StoreProperties.FuelUnitPerKFactorEdges | enguino/sensors.h:140-150 | From a cleared counter (for example, with k-factor 38), edges 1 to k-factor-1 leave fuel and dirty alone. Edge number k-factor takes exactly one unit of fuel, clears the counter and sets dirty. |
| StoreProperties.HobbsCountsDown | enguino/sensors.h:120 | Until the prescaler runs out, calls only count it down. |
| StoreProperties.HobbsPeriod | enguino/sensors.h:119-128 | The call that exhausts the prescaler adds one tick to the total and sets dirty. It reloads the prescaler with 3600/40 = 90 and leaves fuel alone. |
| StoreProperties.HobbsWraps | enguino/sensors.h:121-124 | At 39999 the next advance wraps `hobbs` to 0, increments `hobbs1k` and sets dirty. |
| StoreProperties.StaleRingReset | enguino/sensors.h:110-117 | Two periodic ticks with no tachometer edge in between always leave an all-zero ring and a cleared flag. |
| StoreProperties.RingHoldsLastPulses | enguino/sensors.h:130-138 | A run of up to eight edges fills consecutive ring slots from `rpmInx` on. Each slot holds the RPM of its own interval, and the other slots stay as they were. |
| StoreProperties.FourSweepsFillEveryColumn | enguino/sensors.h:153-158 | Four ADC sweeps put each channel's four readings into its four columns, one per column starting at `adcIndex`. The index returns to where it started. |
| SensorReader.ThermistorWellFormed | enguino/sensors.h:28-42 | The thermistor table lists 32 outputs and 31 step bytes. Every step is positive and the outputs strictly decrease. |
| SensorReader.SenderTableWellFormed | enguino/sensors.h:44-56 | The 240-33 ohm table lists 28 outputs and 27 step bytes. Every step is positive and the outputs strictly decrease. |
| SensorReader.Average4 | enguino/sensors.h:160-165 | `avg >> 2` of the 16-bit running sum is the mean rounded down (`4*avg <= sum < 4*avg + 4`) whenever the sum fits in an `int`. |
| SensorReader.TachReading | enguino/sensors.h:206-215 | The reading is the mean of the middle four slots of the sorted ring, rounded down, whenever those four are small enough for their sum to fit in an `int`. The two lowest and two highest slots may hold anything. |
| SensorReader.TachOrderIndependent | enguino/sensors.h:206-215 | The RPM reading depends only on the ring's contents, not on which slot holds which value. |
| SensorReader.TachBetweenMiddleSlots | enguino/sensors.h:213-214 | For any sorted arrangement of the ring, the reading lies between its third-lowest and third-highest values, so the two lowest and two highest cannot move it, however far out they are. Only the middle four must be small enough for their sum to fit in an `int`. |
| SensorReader.TachWithinRing | enguino/sensors.h:206-215 | The reading lies between the ring's minimum and maximum, whatever the outliers, whenever the middle four sorted slots are small enough for their sum to fit in an `int`. |
| SensorReader.TachFromSorted | enguino/sensors.h:213-214 | For any sorted arrangement of the ring, the reading is the average of that arrangement's middle four slots. |
| SensorReader.TachRejectsOutliers | enguino/sensors.h:206-215 | One arbitrarily high and one arbitrarily low slot among six equal readings are both discarded, and the reading is the steady value. `[100,100,100,100,100,100,9999,1]` reads 100. |
| SensorReader.ConvertUnlessFault | enguino/sensors.h:239-240 | The Fahrenheit conversion is applied only to a reading that is not FAULT, and a FAULT reading passes through unchanged. |
| SensorReader.ToFahrenheit | enguino/sensors.h:240 | For a reading of magnitude at most 3640 and a result that fits in an `int`, nothing wraps: the result is the truncated quotient `(9v)/5` plus `toF`. |
| SensorReader.FahrenheitExact | enguino/sensors.h:240 | For readings of either sign while `v*9` fits in an `int`, the 16-bit conversion is `9v/5 + toF` truncated toward zero: rounded down at or above 0 and rounded up below 0. |
| SensorReader.FahrenheitExamples | enguino/sensors.h:240 | 100.0 C reads 212.0 F, 0 C reads 32.0 F and -40.0 C reads -40.0 F. 1000 C in quarter degrees overflows the 16-bit product and comes out negative. |
| SensorReader.RouteOf | enguino/sensors.h:179-189 | A negative channel `pin + n` always routes to FAULT, and a non-negative one that fits in an `int` never does. |
| SensorReader.ThermocoupleValue | enguino/sensors.h:230-241 | A FAULT thermocouple sample stays FAULT on every path except the J-type linearisation. A K-type Fahrenheit sample other than FAULT becomes `(v*9)/5 + 32*4` in 16 bits. Every type other than J and K returns the sample unchanged. |
| SensorReader.AnalogValue | enguino/sensors.h:216-229 | A type without a transform reads the averaged sample unchanged. A Fahrenheit thermistor reads the thermistor table and converts it to Fahrenheit, unless the table answered FAULT. |
| SensorReader.ReadSensor | enguino/sensors.h:178-243 | The following cases are stated: a negative channel returns FAULT; the tachometer channel returns the denoised ring reading; the hobbs channel returns `hobbs >> 2`, which is at most 9999; the fuel-flow channel returns `FlowReading` of the `multiply` product; the fuel-remaining channel returns `fuel >> 2` for a fuel total below 2^17; an analog channel of a type without a transform returns the average of its four samples; a FAULT sample on a K-type or plain thermocouple, and a FAULT from the thermistor table on a Fahrenheit thermistor, pass through as FAULT; a K-type Fahrenheit thermocouple converts any other sample to Fahrenheit; a thermocouple channel of any type other than J and K returns `tcTemp[p-16]` unchanged. |
| SensorReader.ReadingWithoutHelpers | enguino/sensors.h:192-229 | Only the fuel-flow route, the J-type linearisation and the analog types with a transform call the arithmetic helpers. Every other reading is the same whatever the helpers compute. |
| SensorReader.ScaleValue | enguino/sensors.h:245-249 | FAULT is never scaled: it maps to FAULT. |
| SensorReader.InBandIsClear | enguino/sensors.h:257-266 | With ordered thresholds, a value in `[lowCaution, highCaution]` raises no bit. |
| SensorReader.LowAlertExact | enguino/sensors.h:258-261 | WARNING_LOW is raised exactly below `lowWarning`, and CAUTION_LOW exactly on `[lowWarning, lowCaution)`. The two are never both raised, so warning takes precedence. |
| SensorReader.HighAlertExact | enguino/sensors.h:262-265 | WARNING_HIGH is raised exactly above `highWarning`, and CAUTION_HIGH exactly on `(highCaution, highWarning]`. The two are never both raised. |
| SensorReader.FlowReading | enguino/sensors.h:198 | The fuel-flow reading is the pulse product divided by the k-factor and rounded to the nearest whole, halves up: `r*kFactor <= product + kFactor/2 < r*kFactor + kFactor`, for a non-negative product whose quotient fits in an `int`. |
| SensorReader.AlertState | enguino/sensors.h:251-269 | A null sensor gives 0. A scaled value of FAULT gives exactly ALERT_FAULT; this includes every FAULT reading and so every negative channel. Any other scaled value gives its low and high band bits. |
| LedBus.SendBytes | enguino/printLED.h:107-110 | Bytes go out in order. Every byte sent except the last was acknowledged, and the loop stops early only after a refused byte. Exactly one answer is used per byte. |
| LedBus.WriteI2C | enguino/printLED.h:104-113 | The trace is the start with the address byte (`0xE0` OR `line<<1` OR `I2C_WRITE`), then the bytes sent, then exactly one stop. A refused start sends no byte. After an acknowledged start, the bytes sent are the buffer prefix up to and including the first refused byte, or the whole buffer. |
| LedBus.Command | enguino/printLED.h:116-118 | A one-byte transaction sends its command byte only when the start is acknowledged, and always ends with a stop. |
| LedBus.Setup | enguino/printLED.h:165-173 | Whatever the displays answer, set-up appends six transactions to the trace and leaves the earlier events alone: 0x21, 0x81 and 0xEF to display 0, then the same to display 1. Each transaction is a start with the display's address, then its command byte if the start was acknowledged, then a stop. That is 12 to 18 events. |
| LedBus.SetupLineShape | enguino/printLED.h:165-169 | For any answers, one display's set-up is its three commands in order, each a start, at most its command byte, and a stop. |
| LedBus.SetupAllAcked | enguino/printLED.h:165-173 | When everything is acknowledged, set-up is six complete one-byte transactions: 0x21, 0x81 and 0xEF to display 0, then the same three to display 1. It uses 12 answers. |
| LedBus.SetupAbsentDevice | enguino/printLED.h:165-173 | With no device answering, set-up still addresses display 0 three times and then display 1 three times. Each attempt is a start followed directly by a stop. |
| LedDisplay.DigitCodes | enguino/printLED.h:92 | A segment pattern decodes as a digit exactly when it is one of the ten codes of `characterMap`. |
| LedDisplay.DigitGlyph | enguino/printLED.h:39-50 | Each digit code is non-zero, has no decimal-point bit, and decodes back to its own digit. |
| LedDisplay.DistinctDigits | enguino/printLED.h:39-48 | The ten digit codes are pairwise distinct and none of them has the 0x80 bit. |
| LedDisplay.RawDigits | enguino/printLED.h:124-131 | Digits are written right to left from position `offset-1` and stop after the most significant digit or at the left edge. Position `offset-1-i` holds the `i`-th digit of the value, counting from the units. No other digit position and no other slot changes. |
| LedDisplay.RawDigitsReadBack | enguino/printLED.h:124-131 | Written into blank positions with room enough, the digits decode back to exactly the value written. So there are no leading zeros, and 0 shows one `0`. |
| LedDisplay.NoLeadingZero | enguino/printLED.h:128-129 | The leftmost digit written for a non-zero value is never 0. |
| LedDisplay.PointHidden | enguino/printLED.h:50 | Lighting a decimal point changes nothing that the digit decoder reads. |
| LedPrint.Status | enguino/printLED.h:154-161 | The frame is cleared. On line 0, slots 2 and 10 hold the alarm status, and slots 6 and 14 hold NORMAL for a caution and the status otherwise. On any other line all 17 bytes are 0. |
| LedPrint.IndicatorColours | enguino/printLED.h:157-159 | An alarm lights red in 4 of the 4 indicator slots and green in none. A caution lights red in 2 and green in 4, which reads as yellow. Normal lights green in 4 and red in none. |
| LedPrint.StatusBlank | enguino/printLED.h:154-161 | The status frame leaves all four digit positions blank. |
| LedPrint.CharsFrame | enguino/printLED.h:176-184 | Slots 1, 3, 7 and 9 hold the four given bytes and slot 5 the colon byte. Every other slot is the status frame. |
| LedPrint.PrintChars | enguino/printLED.h:176-184 | The text frame is sent once to display `line`. |
| LedPrint.PrintText | enguino/printLED.h:187-189 | The first four bytes of the text go into the digit positions left to right, and the colon byte goes into slot 5. Every other slot holds what the status frame holds. The frame is the five-argument text frame, sent once. |
| LedPrint.Clamp | enguino/printLED.h:207-210 | The clamped value lies in 0..9999. It equals the number inside that range, is 0 for a negative number and is 9999 for a number above 9999. |
| LedPrint.NumberFrame | enguino/printLED.h:207-214 | Every slot outside the four digit positions holds what the status frame holds. |
| LedPrint.PrintNumber | enguino/printLED.h:202-217 | FAULT prints the "inoP" frame, and that frame goes out twice. Any other number prints its number frame, which goes out once. |
| LedPrint.NumberReadBack | enguino/printLED.h:207-212 | Decoding positions 1, 3, 7 and 9 of a number frame, with blank meaning "no digit", gives back the number clamped to [0, 9999]. |
| LedPrint.NumberDecimalPoint | enguino/printLED.h:211-214 | The 0x80 bit is lit on exactly one digit position, `addressDigit[3-decimal]`, when `decimal` is not 0, and on none when it is 0. All non-digit slots, including 0 and 5, are the status frame. |
| LedPrint.FaultNeverANumber | enguino/printLED.h:203-204 | The FAULT frame holds i, n, o and P in slots 1, 3, 7 and 9 and the colon byte in slot 5. None of these positions shows a digit, so the frame never decodes as a number. |
| LedPrint.HalfDigits | enguino/printLED.h:135-152 | Only positions `offset-2` and `offset-1` change. |
| LedPrint.HalfFault | enguino/printLED.h:136-139 | FAULT shows two minus signs, which never decode as a number. |
| LedPrint.HalfDigitsReadout | enguino/printLED.h:140-151 | Below 100 the reading in tenths is exact. Up to 999 it is at most 9 tenths low. Above 999 it shows 99. The decimal point is on the left position exactly when the value is below 100, and never on the right one. |
| LedPrint.HalfExamples | enguino/printLED.h:133-152 | 85 shows "8.5", 850 shows "85" with no point, and 1000 shows "99". |
| LedPrint.HalfTenths | enguino/printLED.h:145-148 | Below 100 the value itself is shown, with the decimal point on position `offset-2`. |
| LedPrint.HalfWhole | enguino/printLED.h:143-150 | From 100 on, the value clamped at 999 is shown in whole units (`n/10`) with no decimal point. |
| LedPrint.FuelFrame | enguino/printLED.h:192-199 | Slot 5 holds LED_COLON, and every slot other than the four digit slots and slot 5 is 0. |
| LedPrint.PrintFuel | enguino/printLED.h:192-199 | The fuel frame is sent once, to display 1. |
| LedPrint.FuelSides | enguino/printLED.h:192-199 | Slots 1 and 3 depend only on the left tank and slots 7 and 9 only on the right tank. |
| LedPrint.FuelLeftReadout | enguino/printLED.h:195 | The left tank shows two minus signs for FAULT. Otherwise slots 1 and 3 decode as the half-digit value of the tank converted to a `word`, with the point on slot 1 exactly below 100. |
| LedPrint.FuelRightReadout | enguino/printLED.h:196 | The same holds for the right tank on slots 7 and 9. |
| LedPrint.NegativeFuelReads99 | enguino/printLED.h:141-144 | A negative level other than FAULT becomes a large `word`, so the `number < 0` test never fires. The tank reads 99 with no point, not 0. |
| LedPrint.FramesStartAtAddressZero | enguino/printLED.h:94 | Every text, number and fuel frame starts with display-RAM address 0. |

## Left out

- `interpolate`, `multiplyAndScale` and `multiply`: their bodies are defined outside the modelled files. They are the function fields of `Arith`, and no property depends on what they compute.
- `sort`: its body is defined outside the modelled files. An insertion sort stands in, and only its contract (a sorted permutation) is used.
- The values of `FAULT`, `DUAL_BIT`, the channel IDs, `divisor`, the alert bits, `TACH_DIVIDER` and `I2C_WRITE`: these are defined outside the modelled files, so each is a constant without a value.
- `RVscale`: this is a compile-time floating-point expression, so `SCALE(RVscale)` is an integer constant without a value.
- The `SIMULATE_SENSORS` branch and its table (`enguino/sensors.h:58-100`, `181-184`): the table is built from floating-point constant expressions.
- `isEngineRunning`: it depends on configuration macros that are not part of this model.
- `sensorSetup`: only its `fflowCount = kFactor >> 1` preload is modelled, in `PowerOn`. The interrupt attachment and pin modes are hardware set-up.
- The `tcTemp` producer: it is outside the core, so its nine values are a parameter.
- The EEPROM commit behind the dirty flag: it is outside the core.
- `analogRead` and `micros()`: these are hardware reads, so their values are parameters.
- Interrupt preemption: each interrupt handler and each `noInterrupts()` block is one atomic step.
- The SoftI2CMaster internals (`i2c_init`, `i2c_start`, `i2c_write`, `i2c_stop`): the bus is an acknowledge list plus an event trace. `i2c_init` has no observable effect there.
- Segment codes and brightness settings that are never used: the letter macros other than i, n, o and P, the 2 Hz, 1 Hz and 0.5 Hz blink commands, and `HT16K33_BRIGHT_MIN`.
- EeStatus: the C widths of `hobbs`, `hobbs1k` and `fuel` are declared outside the modelled files, so they are unbounded here. A wrap of `hobbs1k` or of `fuel` is not modelled.
- SensorReader.ReadSensor: channels 12 to 15 would read past `adcSample`, and channels from 24 on return an uninitialised `v`. Both are excluded by the `Readable` precondition, as is a fuel-flow read with a k-factor of 0, which would divide by zero.
- SensorReader.ReadSensor: the product `multiply(fflowRate, 450)` on the fuel-flow route, the values of the analog types with a transform and the J-type linearisation come from the `Arith` collaborators, so no contract states what they compute. The rounding division of the fuel-flow product by the k-factor is stated (`FlowReading`), and so are the values of every other route.
- LedPrint.PrintNumber: a `decimal` above 3 makes the C code index `addressDigit[3-decimal]` out of bounds, so a number other than FAULT requires `decimal <= 3`.
- SampleStore.TachIRQ: an edge with the same `micros()` value as the previous one would divide by zero, so it is excluded by a precondition.
- SensorReader.Average4: the rounding is stated only when the four-sample sum fits in 16 bits. Beyond that the running sum wraps as it does in C, and no contract describes the result.

Behaviour of the code that is easy to miss, which the model keeps:
- A FAULT thermocouple sample on a J-type channel goes through the J-type linearisation before any FAULT test, so it does not reliably stay FAULT. Only the Fahrenheit step and `scaleValue` test for FAULT. `SensorReader.ThermocoupleValue` states FAULT propagation for the other thermocouple types only.
- An out-of-range channel is not turned into FAULT by the code (see `ReadSensor` above). Only a negative channel is.
- `(v*9)/5` is computed in 16 bits, so a Fahrenheit conversion of a value above 3640 in magnitude overflows (`SensorReader.FahrenheitExamples`).
- `printLEDRawHalfDigits` takes a `word`, so its `number < 0` test is dead. A negative level other than FAULT wraps and shows 99 (`LedPrint.NegativeFuelReads99`).
- The FAULT path of the numeric `printLED` sends its frame twice (`LedPrint.PrintNumber`).

=== FILE: led_bus.dfy ===
/**
 The I2C side of the LED display driver (enguino/printLED.h): one write transaction per
 call, framed by a start condition carrying the display's address and a stop condition.

 The bit-banged bus driver itself is not part of this model. What the transaction needs
 from it is whether the device acknowledged each start and each byte: a `Bus` carries
 those answers as a list consumed in order (an exhausted list answers "not
 acknowledged", as an absent device does) together with the trace of bus events so far.
 */
module LedBus {
  import opened Platform

  /** What the driver puts on the wire. */
  datatype Event = Start(address: bv8) | Send(data: bv8) | Stop

  /** The remaining acknowledge answers and the events issued so far. */
  datatype Bus = Bus(acks: seq<bool>, trace: seq<Event>)

  /** `0x70 << 1`: the 7-bit address of the first display, shifted into the address byte. */
  const I2C_ADDRESS: bv8 := 0xE0
  /** The read/write bit of the address byte; its value belongs to the bus driver. */
  const I2C_WRITE: bv8

  const OSCILLATOR_ON: bv8 := 0x21
  /** Display on, blinking off: `0x80 | 0x01 | 0`. */
  const BLINK_OFF: bv8 := 0x81
  /** Full brightness: `0xE0 | 15`. */
  const BRIGHT_MAX: bv8 := 0xEF

  /** The address byte of display `line` (0 is the top display, 1 the second at 0x71). */
  function Address(line: uint8): bv8 {
    I2C_ADDRESS | ((line as bv8) << 1) | I2C_WRITE
  }

  /** Whether the `i`-th pending question is answered with an acknowledge. */
  predicate Acked(acks: seq<bool>, i: nat) {
    i < |acks| && acks[i]
  }

  /** The answers left after `n` questions. */
  function Drop(acks: seq<bool>, n: nat): seq<bool> {
    if n <= |acks| then acks[n..] else []
  }

  /** The bytes of `data`, each as a bus event. */
  function Sends(data: seq<bv8>): (r: seq<Event>)
    ensures |r| == |data|
    ensures forall i :: 0 <= i < |data| ==> r[i] == Send(data[i])
  {
    seq(|data|, i requires 0 <= i < |data| => Send(data[i]))
  }

  /**
   The byte loop of a transaction: bytes go out in order until one is not acknowledged
   (that byte is still on the wire) or the data runs out. `n` bytes are sent, where every
   byte but the last sent was acknowledged, and the transfer stops early only on a refusal.
   */
  function SendBytes(bus: Bus, data: seq<bv8>): (r: Bus)
    ensures var n := |r.trace| - |bus.trace|;
            && 0 <= n <= |data|
            && r.trace == bus.trace + Sends(data[..n])
            && r.acks == Drop(bus.acks, n)
            && (|data| > 0 ==> n > 0)
            && (forall i :: 0 <= i < n - 1 ==> Acked(bus.acks, i))
            && (n < |data| ==> n > 0 && !Acked(bus.acks, n - 1))
    decreases |data|
  {
    if |data| == 0 then
      assert data[..0] == [];
      bus
    else
      var next := Bus(Drop(bus.acks, 1), bus.trace + [Send(data[0])]);
      if Acked(bus.acks, 0) then
        var r := SendBytes(next, data[1..]);
        SendBytesShift(bus, next, data, r);
        r
      else
        assert data[..1] == [data[0]];
        next
  }

  /** The bookkeeping behind `SendBytes`: sending the first byte and then the rest sends a prefix of the whole. */
  lemma SendBytesShift(bus: Bus, next: Bus, data: seq<bv8>, r: Bus)
    requires |data| > 0 && Acked(bus.acks, 0)
    requires next == Bus(Drop(bus.acks, 1), bus.trace + [Send(data[0])])
    requires var m := |r.trace| - |next.trace|;
             && 0 <= m <= |data| - 1
             && r.trace == next.trace + Sends(data[1..][..m])
             && r.acks == Drop(next.acks, m)
             && (|data| - 1 > 0 ==> m > 0)
             && (forall i :: 0 <= i < m - 1 ==> Acked(next.acks, i))
             && (m < |data| - 1 ==> m > 0 && !Acked(next.acks, m - 1))
    ensures var n := |r.trace| - |bus.trace|;
            && 0 <= n <= |data|
            && r.trace == bus.trace + Sends(data[..n])
            && r.acks == Drop(bus.acks, n)
            && (forall i :: 0 <= i < n - 1 ==> Acked(bus.acks, i))
            && (n < |data| ==> n > 0 && !Acked(bus.acks, n - 1))
  {
    var m := |r.trace| - |next.trace|;
    TraceShift(bus.trace, data, m, r.trace);
    assert r.acks == Drop(Drop(bus.acks, 1), m) == Drop(bus.acks, m + 1);
    AnswersShift(bus.acks, m, |data| - 1);
  }

  /** The first byte followed by `m` of the rest is the first `m + 1` bytes. */
  lemma TraceShift(trace: seq<Event>, data: seq<bv8>, m: nat, t: seq<Event>)
    requires 0 <= m < |data|
    requires t == trace + [Send(data[0])] + Sends(data[1..][..m])
    ensures t == trace + Sends(data[..m + 1])
  {
    assert [Send(data[0])] + Sends(data[1..][..m]) == Sends(data[..m + 1]);
    assert t == trace + ([Send(data[0])] + Sends(data[1..][..m]));
  }

  /** The start's answer followed by `m` later answers are the first `m + 1` answers. */
  lemma AnswersShift(acks: seq<bool>, m: nat, rest: nat)
    requires Acked(acks, 0)
    requires forall i :: 0 <= i < m - 1 ==> Acked(Drop(acks, 1), i)
    requires m < rest ==> m > 0 && !Acked(Drop(acks, 1), m - 1)
    ensures forall i :: 0 <= i < m ==> Acked(acks, i)
    ensures m < rest ==> !Acked(acks, m)
  {
    LaterAnswers(acks, m);
  }

  /**
   `writeI2C(line, buffer, len)`: a start with the display's address; if the device
   acknowledges it, the byte loop; in every case exactly one stop, at the end.
   */
  function WriteI2C(bus: Bus, line: uint8, data: seq<bv8>): (r: Bus)
    ensures var n := |r.trace| - |bus.trace| - 2;
            && 0 <= n <= |data|
            && r.trace == bus.trace + [Start(Address(line))] + Sends(data[..n]) + [Stop]
            && r.acks == Drop(bus.acks, 1 + n)
            && (!Acked(bus.acks, 0) ==> n == 0)
            && (Acked(bus.acks, 0) ==>
                  && (|data| > 0 ==> n > 0)
                  && (forall i :: 1 <= i < n ==> Acked(bus.acks, i))
                  && (n < |data| ==> !Acked(bus.acks, n)))
  {
    var started := Bus(Drop(bus.acks, 1), bus.trace + [Start(Address(line))]);
    if Acked(bus.acks, 0) then
      var sent := SendBytes(started, data);
      DropAfterStart(bus.acks);
      LaterAnswers(bus.acks, |sent.trace| - |started.trace|);
      sent.(trace := sent.trace + [Stop])
    else
      assert data[..0] == [];
      started.(trace := started.trace + [Stop])
  }

  /** Answers `0 .. m-2` after the start's are answers `1 .. m-1` of the whole list. */
  lemma LaterAnswers(acks: seq<bool>, m: int)
    requires forall i :: 0 <= i < m - 1 ==> Acked(Drop(acks, 1), i)
    ensures forall i :: 1 <= i < m ==> Acked(acks, i)
  {
    forall i | 1 <= i < m
      ensures Acked(acks, i)
    {
      assert Acked(Drop(acks, 1), i - 1);
    }
  }

  /** After the start has taken its answer, the `i`-th remaining answer is the `(1 + i)`-th of the original list. */
  lemma DropAfterStart(acks: seq<bool>)
    ensures forall i: nat :: Drop(Drop(acks, 1), i) == Drop(acks, 1 + i)
    ensures forall i: nat :: Acked(Drop(acks, 1), i) == Acked(acks, 1 + i)
  {
  }

  /** `commandLED(line, command)`: a one-byte transaction. */
  function Command(bus: Bus, line: uint8, command: bv8): (r: Bus)
    ensures r.trace == bus.trace + [Start(Address(line))]
                       + (if Acked(bus.acks, 0) then [Send(command)] else []) + [Stop]
    ensures r.acks == Drop(bus.acks, if Acked(bus.acks, 0) then 2 else 1)
  {
    var r := WriteI2C(bus, line, [command]);
    assert [command][..1] == [command] && [command][..0] == [];
    r
  }

  /** `r`'s trace is `b`'s followed by `events` more bus events. */
  predicate Extends(b: Bus, r: Bus, events: nat) {
    |r.trace| == |b.trace| + events && r.trace[..|b.trace|] == b.trace
  }

  /** Extending twice extends by the sum. */
  lemma ExtendsTwice(a: Bus, b: Bus, c: Bus, e1: nat, e2: nat)
    requires Extends(a, b, e1) && Extends(b, c, e2)
    ensures Extends(a, c, e1 + e2)
  {
    assert c.trace[..|a.trace|] == c.trace[..|b.trace|][..|a.trace|];
  }

  /** The events of a one-byte command: the byte goes out only after an acknowledged start. */
  function Tx(line: uint8, command: bv8, acked: bool): seq<Event> {
    [Start(Address(line))] + (if acked then [Send(command)] else []) + [Stop]
  }

  /** A command appends its transaction, whether or not the start was acknowledged. */
  lemma CommandShape(bus: Bus, line: uint8, command: bv8)
    ensures Command(bus, line, command).trace == bus.trace + Tx(line, command, Acked(bus.acks, 0))
  {
  }

  /** Whatever the display answers, its set-up is the three commands in order, each as one transaction. */
  lemma SetupLineShape(bus: Bus, line: uint8)
    ensures exists x1, x2, x3 :: SetupLine(bus, line).trace
              == bus.trace + Tx(line, OSCILLATOR_ON, x1) + Tx(line, BLINK_OFF, x2) + Tx(line, BRIGHT_MAX, x3)
  {
    var b1 := Command(bus, line, OSCILLATOR_ON);
    var b2 := Command(b1, line, BLINK_OFF);
    var b3 := Command(b2, line, BRIGHT_MAX);
    CommandShape(bus, line, OSCILLATOR_ON);
    CommandShape(b1, line, BLINK_OFF);
    CommandShape(b2, line, BRIGHT_MAX);
    assert SetupLine(bus, line) == b3;
    var x1, x2, x3 := Acked(bus.acks, 0), Acked(b1.acks, 0), Acked(b2.acks, 0);
    assert b3.trace == bus.trace + Tx(line, OSCILLATOR_ON, x1) + Tx(line, BLINK_OFF, x2) + Tx(line, BRIGHT_MAX, x3);
  }

  /**
   The three set-up commands of one display: three transactions, each a start and a stop
   around at most one byte, appended to the trace.
   */
  function SetupLine(bus: Bus, line: uint8): (r: Bus)
    ensures var e := |r.trace| - |bus.trace|;
            6 <= e <= 9 && Extends(bus, r, e)
  {
    var b1 := Command(bus, line, OSCILLATOR_ON);
    var b2 := Command(b1, line, BLINK_OFF);
    var b3 := Command(b2, line, BRIGHT_MAX);
    ExtendsTwice(bus, b1, b2, |b1.trace| - |bus.trace|, |b2.trace| - |b1.trace|);
    ExtendsTwice(bus, b2, b3, |b2.trace| - |bus.trace|, |b3.trace| - |b2.trace|);
    b3
  }

  /**
   `printLEDSetup`: oscillator on, display on without blinking, full brightness; first
   display 0, then display 1. Whatever the displays answer, that is six transactions
   appended to the trace in that order, each a start and a stop around at most its command
   byte.
   */
  function Setup(bus: Bus): (r: Bus)
    ensures var e := |r.trace| - |bus.trace|;
            12 <= e <= 18 && Extends(bus, r, e)
    ensures exists x1, x2, x3, y1, y2, y3 :: r.trace == bus.trace
              + Tx(0, OSCILLATOR_ON, x1) + Tx(0, BLINK_OFF, x2) + Tx(0, BRIGHT_MAX, x3)
              + Tx(1, OSCILLATOR_ON, y1) + Tx(1, BLINK_OFF, y2) + Tx(1, BRIGHT_MAX, y3)
  {
    var b := SetupLine(bus, 0);
    var r := SetupLine(b, 1);
    ExtendsTwice(bus, b, r, |b.trace| - |bus.trace|, |r.trace| - |b.trace|);
    SetupLineShape(bus, 0);
    SetupLineShape(b, 1);
    var x1, x2, x3 :| b.trace == bus.trace + Tx(0, OSCILLATOR_ON, x1) + Tx(0, BLINK_OFF, x2) + Tx(0, BRIGHT_MAX, x3);
    var y1, y2, y3 :| r.trace == b.trace + Tx(1, OSCILLATOR_ON, y1) + Tx(1, BLINK_OFF, y2) + Tx(1, BRIGHT_MAX, y3);
    assert r.trace == bus.trace
              + Tx(0, OSCILLATOR_ON, x1) + Tx(0, BLINK_OFF, x2) + Tx(0, BRIGHT_MAX, x3)
              + Tx(1, OSCILLATOR_ON, y1) + Tx(1, BLINK_OFF, y2) + Tx(1, BRIGHT_MAX, y3);
    r
  }

  /** The bus events of one transaction that the device acknowledged throughout. */
  function Transaction(line: uint8, data: seq<bv8>): seq<Event> {
    [Start(Address(line))] + Sends(data) + [Stop]
  }

  /** The next `n` questions are all answered with an acknowledge. */
  predicate AllAcked(acks: seq<bool>, n: nat) {
    n <= |acks| && forall i :: 0 <= i < n ==> acks[i]
  }

  /**
   With both displays acknowledging everything, set-up is six complete one-byte
   transactions: oscillator, blink-off and brightness to display 0, then the same to display 1.
   */
  lemma SetupAllAcked(bus: Bus)
    requires AllAcked(bus.acks, 12)
    ensures Setup(bus).trace == bus.trace
              + Transaction(0, [OSCILLATOR_ON]) + Transaction(0, [BLINK_OFF]) + Transaction(0, [BRIGHT_MAX])
              + Transaction(1, [OSCILLATOR_ON]) + Transaction(1, [BLINK_OFF]) + Transaction(1, [BRIGHT_MAX])
    ensures Setup(bus).acks == bus.acks[12..]
  {
    var b3 := SetupLine(bus, 0);
    AckedSetupLine(bus, 0, 12);
    AckedSetupLine(b3, 1, 6);
    assert b3.acks[6..] == bus.acks[12..];
  }

  /** One display's set-up, acknowledged throughout, is its three commands as complete transactions. */
  lemma AckedSetupLine(bus: Bus, line: uint8, n: nat)
    requires n >= 6 && AllAcked(bus.acks, n)
    ensures var r := SetupLine(bus, line);
            && r.trace == bus.trace + Transaction(line, [OSCILLATOR_ON])
                 + Transaction(line, [BLINK_OFF]) + Transaction(line, [BRIGHT_MAX])
            && r.acks == bus.acks[6..] && AllAcked(r.acks, n - 6)
  {
    var b1 := Command(bus, line, OSCILLATOR_ON);
    AckedCommand(bus, line, OSCILLATOR_ON, n);
    var b2 := Command(b1, line, BLINK_OFF);
    AckedCommand(b1, line, BLINK_OFF, n - 2);
    var b3 := Command(b2, line, BRIGHT_MAX);
    AckedCommand(b2, line, BRIGHT_MAX, n - 4);
    assert SetupLine(bus, line) == b3;
    assert b3.acks == bus.acks[2..][2..][2..] == bus.acks[6..];
  }

  /** An acknowledged one-byte command is one complete transaction and takes two answers. */
  lemma AckedCommand(bus: Bus, line: uint8, command: bv8, n: nat)
    requires n >= 2 && AllAcked(bus.acks, n)
    ensures var r := Command(bus, line, command);
            && r.trace == bus.trace + Transaction(line, [command])
            && r.acks == bus.acks[2..] && AllAcked(r.acks, n - 2)
  {
    assert bus.acks[0] && Acked(bus.acks, 0);
    var r := Command(bus, line, command);
    assert Sends([command]) == [Send(command)];
    assert r.trace == bus.trace + [Start(Address(line))] + [Send(command)] + [Stop];
    assert r.acks == Drop(bus.acks, 2) == bus.acks[2..];
  }

  /**
   With no display answering, set-up still addresses each display three times, and each
   attempt ends with its stop without sending the command byte.
   */
  lemma SetupAbsentDevice(bus: Bus)
    requires bus.acks == []
    ensures var a0, a1 := Start(Address(0)), Start(Address(1));
            Setup(bus).trace == bus.trace + [a0, Stop, a0, Stop, a0, Stop, a1, Stop, a1, Stop, a1, Stop]
  {
  }
}

=== FILE: led_display.dfy ===
/**
 The frame builder of the LED display driver (enguino/printLED.h). A display shows four
 seven-segment digits and a colon; its 17-byte frame starts with the display-RAM
 address 0, the four digits sit in slots 1, 3, 7 and 9, the colon in slot 5, and the
 status indicators in slots 2, 6, 10 and 14.

 This module holds the frame layout, the digit writer `printLEDRawDigits`, and a reader
 that decodes what the digit positions show, against which the writers are proved.
 */
module LedDisplay {
  import opened Platform

  type Frame = seq<bv8>

  const FRAME_SIZE := 17

  /** The frame slots of the four digits, left to right (slot 5, the colon, is skipped). */
  const ADDRESS_DIGIT: seq<nat> := [1, 3, 7, 9]

  /** Segment codes of the digits 0 to 9. */
  const LED_DIGITS: seq<bv8> := [0x3F, 0x06, 0x5B, 0x4F, 0x66, 0x6D, 0x7D, 0x07, 0x7F, 0x6F]

  /** The decimal point: the segment bit every glyph comparison ignores. */
  const LED_DP: bv8 := 0x80

  /** The slots `ADDRESS_DIGIT` lists. */
  predicate IsDigitSlot(k: int) {
    k == 1 || k == 3 || k == 7 || k == 9
  }

  // ---------------------------------------------------------------------------
  // Reading a frame back

  /** The segments of a slot without its decimal point. */
  function Glyph(c: bv8): bv8 {
    c & 0x7F
  }

  /** The digit a segment pattern shows, if any. */
  function DigitOf(g: bv8): (d: Option<nat>)
    ensures d.Some? ==> d.value < 10 && LED_DIGITS[d.value] == g
    ensures d.None? ==> forall i :: 0 <= i < 10 ==> LED_DIGITS[i] != g
  {
    DigitFrom(g, 0)
  }

  function DigitFrom(g: bv8, i: nat): (d: Option<nat>)
    requires i <= 10
    ensures d.Some? ==> i <= d.value < 10 && LED_DIGITS[d.value] == g
    ensures d.None? ==> forall j :: i <= j < 10 ==> LED_DIGITS[j] != g
    decreases 10 - i
  {
    if i == 10 then None
    else if LED_DIGITS[i] == g then Some(i)
    else DigitFrom(g, i + 1)
  }

  /** The glyphs of digit positions `lo` to `hi - 1`, left to right. */
  function Window(f: Frame, lo: nat, hi: nat): (w: seq<bv8>)
    requires |f| == FRAME_SIZE && lo <= hi <= 4
    ensures |w| == hi - lo
    ensures forall j :: 0 <= j < hi - lo ==> w[j] == Glyph(f[ADDRESS_DIGIT[lo + j]])
  {
    seq(hi - lo, j requires 0 <= j < hi - lo => Glyph(f[ADDRESS_DIGIT[lo + j]]))
  }

  /**
   The number a row of glyphs shows to a reader: leading blank positions are skipped,
   every other position must be a digit, and at least one digit must be shown.
   */
  function Decode(gs: seq<bv8>): Option<nat>
    decreases |gs|
  {
    if |gs| == 0 then None
    else if gs[0] == 0 then Decode(gs[1..])
    else DigitsValue(gs)
  }

  /** The decimal value of a row of digit glyphs, or None if one of them is not a digit. */
  function DigitsValue(gs: seq<bv8>): Option<nat>
    decreases |gs|
  {
    if |gs| == 0 then Some(0)
    else
      match DigitsValue(gs[..|gs| - 1])
      case None => None
      case Some(v) =>
        match DigitOf(gs[|gs| - 1])
        case None => None
        case Some(d) => Some(v * 10 + d)
  }

  /** What the four digit positions of a frame show. */
  function Shown(f: Frame): Option<nat>
    requires |f| == FRAME_SIZE
  {
    Decode(Window(f, 0, 4))
  }

  // ---------------------------------------------------------------------------
  // Decimal digits

  /** The `j`-th decimal digit of `val`, counting from the units. */
  function DigitAt(val: nat, j: nat): (d: nat)
    ensures d < 10
    decreases j
  {
    if j == 0 then val % 10 else DigitAt(val / 10, j - 1)
  }

  /** How many digits `val` has without leading zeros (0 has one). */
  function NumDigits(val: nat): (n: nat)
    ensures n >= 1
  {
    if val < 10 then 1 else 1 + NumDigits(val / 10)
  }

  /** How many positions `printLEDRawDigits(offset, val)` fills. */
  function Filled(offset: nat, val: nat): nat {
    Min(offset, NumDigits(val))
  }

  /**
   `printLEDRawDigits(offset, val)`: the digits of `val` right to left into digit positions
   `offset - 1` downward, stopping after the most significant digit (so no leading zeros,
   and 0 shows a single 0) or at the left edge. No other slot changes.
   */
  function RawDigits(buf: Frame, offset: nat, val: uint16): (r: Frame)
    requires |buf| == FRAME_SIZE && offset <= 4
    ensures |r| == FRAME_SIZE
    ensures forall k :: 0 <= k < FRAME_SIZE && !IsDigitSlot(k) ==> r[k] == buf[k]
    ensures forall j :: 0 <= j < 4 && !(offset - Filled(offset, val) <= j < offset) ==>
              r[ADDRESS_DIGIT[j]] == buf[ADDRESS_DIGIT[j]]
    ensures forall j :: offset - Filled(offset, val) <= j < offset ==>
              r[ADDRESS_DIGIT[j]] == LED_DIGITS[DigitAt(val, offset - 1 - j)]
    decreases offset
  {
    if offset == 0 then buf
    else
      var b := buf[ADDRESS_DIGIT[offset - 1] := LED_DIGITS[val % 10]];
      if val / 10 == 0 then b else RawDigits(b, offset - 1, val / 10)
  }

  /** A segment pattern reads as a digit exactly when it is one of the ten digit codes. */
  lemma DigitCodes(g: bv8)
    ensures DigitOf(g).Some? <==> g in LED_DIGITS
  {
    if g in LED_DIGITS {
      var i :| 0 <= i < 10 && LED_DIGITS[i] == g;
    }
  }

  /** A digit's segment code has no decimal point, is not blank, and reads back as that digit. */
  lemma DigitGlyph(d: nat)
    requires d < 10
    ensures Glyph(LED_DIGITS[d]) == LED_DIGITS[d] && LED_DIGITS[d] != 0
    ensures LED_DIGITS[d] & LED_DP == 0
    ensures DigitOf(LED_DIGITS[d]) == Some(d)
  {
    var r := DigitOf(LED_DIGITS[d]);
    DistinctDigits();
  }

  /** No two digits share a segment pattern, and none has its decimal point lit. */
  lemma DistinctDigits()
    ensures forall i, j :: 0 <= i < j < 10 ==> LED_DIGITS[i] != LED_DIGITS[j]
    ensures forall i :: 0 <= i < 10 ==> LED_DIGITS[i] & LED_DP == 0 && Glyph(LED_DIGITS[i]) == LED_DIGITS[i]
  {
  }

  /** Blank positions followed by one digit read as that digit. */
  lemma {:induction false} BlankThenDigit(zs: seq<bv8>, d: nat)
    requires AllBlank(zs)
    requires d < 10
    ensures Decode(zs + [LED_DIGITS[d]]) == Some(d)
    decreases |zs|
  {
    DigitGlyph(d);
    if |zs| == 0 {
      var x := LED_DIGITS[d];
      assert zs + [x] == [x] && [x][..0] == [];
      assert DigitsValue([x]) == Some(d);
    } else {
      assert (zs + [LED_DIGITS[d]])[1..] == zs[1..] + [LED_DIGITS[d]];
      BlankThenDigit(zs[1..], d);
    }
  }

  /** One more digit on the right multiplies what a row shows by ten and adds the digit. */
  lemma {:induction false} AppendDigit(gs: seq<bv8>, v: nat, d: nat)
    requires Decode(gs) == Some(v) && d < 10
    ensures Decode(gs + [LED_DIGITS[d]]) == Some(v * 10 + d)
    decreases |gs|
  {
    DigitGlyph(d);
    var x := LED_DIGITS[d];
    if gs[0] == 0 {
      assert (gs + [x])[1..] == gs[1..] + [x];
      AppendDigit(gs[1..], v, d);
    } else {
      assert (gs + [x])[..|gs|] == gs;
    }
  }

  /**
   Round trip: the digits `printLEDRawDigits` writes into blank positions `lo` to `offset - 1`
   read back as the value written, whenever the value has no more digits than there are positions.
   */
  lemma {:induction false} RawDigitsReadBack(buf: Frame, lo: nat, offset: nat, val: uint16)
    requires |buf| == FRAME_SIZE && lo <= offset <= 4 && NumDigits(val) <= offset - lo
    requires Blank(buf, lo, offset)
    ensures Decode(Window(RawDigits(buf, offset, val), lo, offset)) == Some(val)
    decreases offset, 1
  {
    if val / 10 == 0 {
      var r := RawDigits(buf, offset, val);
      LastPosition(r, lo, offset, val);
      BlankBeforeUnits(buf, lo, offset, val);
      BlankThenDigit(Window(r, lo, offset - 1), val);
    } else {
      ReadBackTens(buf, lo, offset, val);
    }
  }

  /** The inductive step of `RawDigitsReadBack`: the units digit after what the tens read back as. */
  lemma {:induction false} ReadBackTens(buf: Frame, lo: nat, offset: nat, val: uint16)
    requires |buf| == FRAME_SIZE && lo <= offset <= 4 && NumDigits(val) <= offset - lo
    requires Blank(buf, lo, offset) && val >= 10
    ensures Decode(Window(RawDigits(buf, offset, val), lo, offset)) == Some(val)
    decreases offset, 0
  {
    var units := val % 10;
    var b := buf[ADDRESS_DIGIT[offset - 1] := LED_DIGITS[units]];
    var r := RawDigits(b, offset - 1, val / 10);
    assert r == RawDigits(buf, offset, val);
    BlankLeftOf(buf, lo, offset, LED_DIGITS[units]);
    RawDigitsReadBack(b, lo, offset - 1, val / 10);
    UnitsKept(b, offset, val / 10, units);
    LastPosition(r, lo, offset, units);
    AppendDigit(Window(r, lo, offset - 1), val / 10, units);
  }

  /** Writing the tens to the left of the units leaves the units in place. */
  lemma UnitsKept(b: Frame, offset: nat, tens: uint16, units: nat)
    requires |b| == FRAME_SIZE && 0 < offset <= 4 && units < 10
    requires b[ADDRESS_DIGIT[offset - 1]] == LED_DIGITS[units]
    ensures RawDigits(b, offset - 1, tens)[ADDRESS_DIGIT[offset - 1]] == LED_DIGITS[units]
  {
  }

  /** No position of a row shows anything. */
  predicate AllBlank(gs: seq<bv8>) {
    forall i :: 0 <= i < |gs| ==> gs[i] == 0
  }

  /** Digit positions `lo` to `hi - 1` show nothing. */
  predicate Blank(f: Frame, lo: nat, hi: nat)
    requires |f| == FRAME_SIZE && lo <= hi <= 4
  {
    forall j :: lo <= j < hi ==> Glyph(f[ADDRESS_DIGIT[j]]) == 0
  }

  /** A one-digit value leaves the positions to its left as blank as they were. */
  lemma BlankBeforeUnits(buf: Frame, lo: nat, offset: nat, val: uint16)
    requires |buf| == FRAME_SIZE && lo < offset <= 4 && val < 10
    requires Blank(buf, lo, offset)
    ensures AllBlank(Window(RawDigits(buf, offset, val), lo, offset - 1))
  {
    var r := RawDigits(buf, offset, val);
    var w := Window(r, lo, offset - 1);
    assert Filled(offset, val) == 1;
    forall j | 0 <= j < |w|
      ensures w[j] == 0
    {
      assert r[ADDRESS_DIGIT[lo + j]] == buf[ADDRESS_DIGIT[lo + j]];
    }
  }

  /** Peeling off the rightmost position of a window whose slot holds digit `d`. */
  lemma LastPosition(r: Frame, lo: nat, offset: nat, d: nat)
    requires |r| == FRAME_SIZE && lo < offset <= 4 && d < 10
    requires r[ADDRESS_DIGIT[offset - 1]] == LED_DIGITS[d]
    ensures Window(r, lo, offset) == Window(r, lo, offset - 1) + [LED_DIGITS[d]]
  {
    DigitGlyph(d);
  }

  /** Writing the rightmost position of a blank window leaves the rest of it blank. */
  lemma BlankLeftOf(buf: Frame, lo: nat, offset: nat, x: bv8)
    requires |buf| == FRAME_SIZE && lo < offset <= 4
    requires Blank(buf, lo, offset)
    ensures Blank(buf[ADDRESS_DIGIT[offset - 1] := x], lo, offset - 1)
  {
    DistinctPositions();
  }

  /** The four digit positions are four different slots. */
  lemma DistinctPositions()
    ensures forall i, j :: 0 <= i < j < 4 ==> ADDRESS_DIGIT[i] != ADDRESS_DIGIT[j]
  {
  }

  /** The leftmost digit written for a non-zero value is never a zero. */
  lemma {:induction false} NoLeadingZero(val: nat)
    requires val > 0
    ensures DigitAt(val, NumDigits(val) - 1) != 0
    decreases val
  {
    if val >= 10 {
      NoLeadingZero(val / 10);
    }
  }

  /** Values below 10, 100, 1000 and 10000 have at most one, two, three and four digits. */
  lemma {:induction false} FewDigits(val: nat)
    ensures val < 10 ==> NumDigits(val) <= 1
    ensures val < 100 ==> NumDigits(val) <= 2
    ensures val < 1000 ==> NumDigits(val) <= 3
    ensures val < 10000 ==> NumDigits(val) <= 4
    decreases val
  {
    if val >= 10 {
      FewDigits(val / 10);
    }
  }

  /** Lighting a decimal point changes no glyph a reader decodes. */
  lemma PointHidden(f: Frame, k: nat, lo: nat, hi: nat)
    requires |f| == FRAME_SIZE && k < FRAME_SIZE && lo <= hi <= 4
    ensures Window(f[k := f[k] | LED_DP], lo, hi) == Window(f, lo, hi)
  {
    var w, v := Window(f[k := f[k] | LED_DP], lo, hi), Window(f, lo, hi);
    forall j | 0 <= j < |w|
      ensures w[j] == v[j]
    {
    }
  }
}

=== FILE: led_print.dfy ===
/**
 The print routines of the LED display driver (enguino/printLED.h). Each one clears the
 frame, fills it and sends it to one display.

 The C code keeps the frame and the two indicator bytes `alarmStatus` and `colon` as
 globals. Here the indicator bytes are an argument, and every routine returns the frame it
 built together with the bus after the frame went out.
 */
module LedPrint {
  import opened Platform
  import opened LedBus
  import opened LedDisplay

  /** The minus sign, which is the middle segment. */
  const LED_MINUS: bv8 := 0x40
  /** The letters of "inoP": lower-case i, n and o, and upper-case P. */
  const LED_LOWER_I: bv8 := 0x04
  const LED_LOWER_N: bv8 := 0x54
  const LED_LOWER_O: bv8 := 0x5C
  const LED_P: bv8 := 0x73

  const STATUS_ALARM: bv8 := 0x4
  const STATUS_CAUTION: bv8 := 0x5
  const STATUS_NORMAL: bv8 := 0x1

  /** The red and the green element of an indicator slot; the alarm status lights red and normal lights green. */
  const RED: bv8 := 0x4
  const GREEN: bv8 := 0x1

  /** The colon segments in slot 5. */
  const LED_COLON: bv8 := 2

  /** The two global bytes that a frame shows besides its text: the status indicators and the colon. */
  datatype Indicators = Indicators(alarmStatus: bv8, colon: bv8)

  /** A frame built by one print routine, and the bus after the frame was sent. */
  datatype Output = Output(frame: Frame, bus: Bus)

  /** The slots of the status indicators. */
  predicate IsIndicatorSlot(k: int) {
    k == 2 || k == 6 || k == 10 || k == 14
  }

  /** `memset(ledBuffer, 0, sizeof(ledBuffer))`. */
  function Cleared(): (f: Frame)
    ensures |f| == FRAME_SIZE
    ensures forall k :: 0 <= k < FRAME_SIZE ==> f[k] == 0
  {
    seq(FRAME_SIZE, k => 0)
  }

  // ---------------------------------------------------------------------------
  // Status indicators

  /**
   `printStatus(line)`: a cleared frame. On the top display the four indicator slots show
   the alarm status. A caution is drawn as the status itself in slots 2 and 10 and as plain
   green in slots 6 and 14.
   */
  function Status(line: uint8, alarm: bv8): (f: Frame)
    ensures |f| == FRAME_SIZE
    ensures forall k :: 0 <= k < FRAME_SIZE && !(line == 0 && IsIndicatorSlot(k)) ==> f[k] == 0
    ensures line == 0 ==> f[2] == alarm && f[10] == alarm
    ensures line == 0 ==> f[6] == f[14] == (if alarm == STATUS_CAUTION then STATUS_NORMAL else alarm)
  {
    if line == 0 then
      var green := if alarm == STATUS_CAUTION then STATUS_NORMAL else alarm;
      Cleared()[6 := green][14 := green][2 := alarm][10 := alarm]
    else
      Cleared()
  }

  /** The number of indicator slots in which `bit` is lit. */
  function Lit(f: Frame, bit: bv8): nat
    requires |f| == FRAME_SIZE
  {
    (if f[2] & bit != 0 then 1 else 0) + (if f[6] & bit != 0 then 1 else 0)
    + (if f[10] & bit != 0 then 1 else 0) + (if f[14] & bit != 0 then 1 else 0)
  }

  /**
   The duty cycle of the top display's indicators:
   - an alarm lights red in all four slots and green in none;
   - a caution lights red in two slots and green in all four, which reads as yellow;
   - normal lights green in all four slots and red in none.
   */
  lemma IndicatorColours()
    ensures Lit(Status(0, STATUS_ALARM), RED) == 4 && Lit(Status(0, STATUS_ALARM), GREEN) == 0
    ensures Lit(Status(0, STATUS_CAUTION), RED) == 2 && Lit(Status(0, STATUS_CAUTION), GREEN) == 4
    ensures Lit(Status(0, STATUS_NORMAL), RED) == 0 && Lit(Status(0, STATUS_NORMAL), GREEN) == 4
  {
  }

  /** The status frame leaves every digit position blank, so that the digits can be written into it. */
  lemma StatusBlank(line: uint8, alarm: bv8)
    ensures Blank(Status(line, alarm), 0, 4)
  {
    var f := Status(line, alarm);
    forall j | 0 <= j < 4
      ensures Glyph(f[ADDRESS_DIGIT[j]]) == 0
    {
      assert !IsIndicatorSlot(ADDRESS_DIGIT[j]);
    }
  }

  // ---------------------------------------------------------------------------
  // Text

  /** The frame of `printLED(line, a, b, c, d)`: the status frame with the four segment patterns in the digit slots and the colon byte in slot 5. */
  function CharsFrame(ind: Indicators, line: uint8, a: bv8, b: bv8, c: bv8, d: bv8): (f: Frame)
    ensures |f| == FRAME_SIZE
    ensures f[1] == a && f[3] == b && f[7] == c && f[9] == d
    ensures f[5] == ind.colon
    ensures forall k :: 0 <= k < FRAME_SIZE && !IsDigitSlot(k) && k != 5 ==> f[k] == Status(line, ind.alarmStatus)[k]
  {
    Status(line, ind.alarmStatus)[1 := a][3 := b][5 := ind.colon][7 := c][9 := d]
  }

  /** `printLED(line, a, b, c, d)`: the text frame, sent once to display `line`. */
  function PrintChars(bus: Bus, ind: Indicators, line: uint8, a: bv8, b: bv8, c: bv8, d: bv8): (o: Output)
    ensures o.frame == CharsFrame(ind, line, a, b, c, d)
    ensures o.bus == WriteI2C(bus, line, o.frame)
  {
    var f := CharsFrame(ind, line, a, b, c, d);
    Output(f, WriteI2C(bus, line, f))
  }

  /** `printLED(line, txt)`: the first four bytes of `txt` in the four digit positions, left to right. */
  function PrintText(bus: Bus, ind: Indicators, line: uint8, txt: seq<bv8>): (o: Output)
    requires |txt| >= 4
    ensures |o.frame| == FRAME_SIZE
    ensures forall j :: 0 <= j < 4 ==> o.frame[ADDRESS_DIGIT[j]] == txt[j]
    ensures o.frame[5] == ind.colon
    ensures forall k :: 0 <= k < FRAME_SIZE && !IsDigitSlot(k) && k != 5 ==> o.frame[k] == Status(line, ind.alarmStatus)[k]
    ensures o.frame == CharsFrame(ind, line, txt[0], txt[1], txt[2], txt[3])
    ensures o.bus == WriteI2C(bus, line, o.frame)
  {
    PrintChars(bus, ind, line, txt[0], txt[1], txt[2], txt[3])
  }

  // ---------------------------------------------------------------------------
  // Numbers

  /** The clamp of the numeric `printLED` to what four digits can show. */
  function Clamp(number: int16): (n: uint16)
    ensures n <= 9999
    ensures 0 <= number <= 9999 ==> n == number
    ensures number < 0 ==> n == 0
    ensures number > 9999 ==> n == 9999
  {
    if number < 0 then 0 else if number > 9999 then 9999 else number
  }

  /** The frame FAULT prints: "inoP" on the status frame. */
  function FaultFrame(ind: Indicators, line: uint8): Frame {
    CharsFrame(ind, line, LED_LOWER_I, LED_LOWER_N, LED_LOWER_O, LED_P)
  }

  /**
   The frame the numeric `printLED` builds for a value other than FAULT. The value is
   clamped to 0..9999 and written right-aligned over the status frame. When `decimal` is
   not 0, the decimal point goes on the digit `decimal` positions from the right.
   */
  function NumberFrame(alarm: bv8, line: uint8, number: int16, decimal: uint8): (g: Frame)
    requires decimal <= 3
    ensures |g| == FRAME_SIZE
    ensures forall k :: 0 <= k < FRAME_SIZE && !IsDigitSlot(k) ==> g[k] == Status(line, alarm)[k]
  {
    var f := RawDigits(Status(line, alarm), 4, Clamp(number));
    if decimal != 0 then f[ADDRESS_DIGIT[3 - decimal] := f[ADDRESS_DIGIT[3 - decimal]] | LED_DP] else f
  }

  /**
   The numeric `printLED(line, number, decimal)`. FAULT prints "inoP" through the text
   routine, which sends the frame, and the frame is then sent a second time. Any other
   value is sent once. The C code indexes `addressDigit[3 - decimal]`, so a decimal
   above 3 is outside its contract.
   */
  function PrintNumber(bus: Bus, ind: Indicators, line: uint8, number: int16, decimal: uint8): (o: Output)
    requires number == FAULT || decimal <= 3
    ensures number == FAULT ==> o.frame == FaultFrame(ind, line)
                                && o.bus == WriteI2C(WriteI2C(bus, line, o.frame), line, o.frame)
    ensures number != FAULT ==> o.frame == NumberFrame(ind.alarmStatus, line, number, decimal)
                                && o.bus == WriteI2C(bus, line, o.frame)
  {
    if number == FAULT then
      var t := PrintChars(bus, ind, line, LED_LOWER_I, LED_LOWER_N, LED_LOWER_O, LED_P);
      Output(t.frame, WriteI2C(t.bus, line, t.frame))
    else
      var g := NumberFrame(ind.alarmStatus, line, number, decimal);
      Output(g, WriteI2C(bus, line, g))
  }

  /** Any value but FAULT reads back, from the four digit positions, as the value clamped to 0..9999. */
  lemma NumberReadBack(alarm: bv8, line: uint8, number: int16, decimal: uint8)
    requires decimal <= 3
    ensures Shown(NumberFrame(alarm, line, number, decimal)) == Some(Clamp(number) as nat)
  {
    var s := Status(line, alarm);
    var f := RawDigits(s, 4, Clamp(number));
    StatusBlank(line, alarm);
    FewDigits(Clamp(number));
    RawDigitsReadBack(s, 0, 4, Clamp(number));
    if decimal != 0 {
      PointHidden(f, ADDRESS_DIGIT[3 - decimal], 0, 4);
    }
  }

  /** Neither the status frame nor a digit lights a decimal point in a digit position. */
  lemma PointsClear(line: uint8, alarm: bv8, n: uint16)
    ensures var f := RawDigits(Status(line, alarm), 4, n);
            forall j :: 0 <= j < 4 ==> f[ADDRESS_DIGIT[j]] & LED_DP == 0
  {
    var s := Status(line, alarm);
    var f := RawDigits(s, 4, n);
    forall j | 0 <= j < 4
      ensures f[ADDRESS_DIGIT[j]] & LED_DP == 0
    {
      if 4 - Filled(4, n) <= j {
        DigitGlyph(DigitAt(n, 3 - j));
      } else {
        assert !IsIndicatorSlot(ADDRESS_DIGIT[j]);
      }
    }
  }

  /**
   The decimal point of a number other than FAULT is lit on exactly one digit position,
   `decimal` positions from the right, when `decimal` is not 0, and on none when it is 0.
   Every other slot, including the colon slot 5, holds what the status frame holds.
   */
  lemma NumberDecimalPoint(alarm: bv8, line: uint8, number: int16, decimal: uint8)
    requires decimal <= 3
    ensures var g := NumberFrame(alarm, line, number, decimal);
            forall j :: 0 <= j < 4 ==> (g[ADDRESS_DIGIT[j]] & LED_DP != 0 <==> decimal != 0 && j == 3 - decimal)
    ensures var g := NumberFrame(alarm, line, number, decimal);
            forall k :: 0 <= k < FRAME_SIZE && !IsDigitSlot(k) ==> g[k] == Status(line, alarm)[k]
  {
    var f := RawDigits(Status(line, alarm), 4, Clamp(number));
    var g := NumberFrame(alarm, line, number, decimal);
    PointsClear(line, alarm, Clamp(number));
    DistinctPositions();
    forall j | 0 <= j < 4
      ensures g[ADDRESS_DIGIT[j]] & LED_DP != 0 <==> decimal != 0 && j == 3 - decimal
    {
      if decimal != 0 && j == 3 - decimal {
        assert g[ADDRESS_DIGIT[j]] == f[ADDRESS_DIGIT[j]] | LED_DP;
      } else {
        assert g[ADDRESS_DIGIT[j]] == f[ADDRESS_DIGIT[j]];
      }
    }
  }

  /**
   The FAULT frame spells "inoP" with the colon byte in slot 5. None of its four positions
   shows a digit, so it never reads as a number.
   */
  lemma FaultNeverANumber(ind: Indicators, line: uint8)
    ensures var f := FaultFrame(ind, line);
            && f[1] == LED_LOWER_I && f[3] == LED_LOWER_N && f[7] == LED_LOWER_O && f[9] == LED_P
            && f[5] == ind.colon
            && (forall j :: 0 <= j < 4 ==> DigitOf(Glyph(f[ADDRESS_DIGIT[j]])).None?)
            && Shown(f) == None
  {
    var f := FaultFrame(ind, line);
    var w := Window(f, 0, 4);
    forall j | 0 <= j < 4
      ensures DigitOf(Glyph(f[ADDRESS_DIGIT[j]])).None?
    {
      DigitCodes(Glyph(f[ADDRESS_DIGIT[j]]));
    }
    NotADigitLast(w);
  }

  /** A row whose first glyph is not blank and whose last is not a digit reads as no number. */
  lemma NotADigitLast(gs: seq<bv8>)
    requires |gs| > 0 && gs[0] != 0 && DigitOf(gs[|gs| - 1]).None?
    ensures Decode(gs) == None
  {
  }

  // ---------------------------------------------------------------------------
  // Fuel

  /** The value `printLEDRawHalfDigits` shows: clamped at 999, in whole units from 100 on and in tenths below. */
  function HalfShown(number: uint16): nat {
    var n := if number > 999 then 999 else number;
    if n < 100 then n else n / 10
  }

  /**
   `printLEDRawHalfDigits(offset, number)`: two minus signs for FAULT. Otherwise the number,
   clamped at 999, goes on positions `offset - 2` and `offset - 1`. Below 100 it is written
   in tenths with the decimal point on position `offset - 2`; from 100 on it is written in
   whole units. The parameter is a `word`, so FAULT is compared after conversion, and the
   C test `number < 0` never holds.
   */
  function HalfDigits(buf: Frame, offset: nat, number: uint16): (r: Frame)
    requires |buf| == FRAME_SIZE && 2 <= offset <= 4
    ensures |r| == FRAME_SIZE
    ensures forall k :: 0 <= k < FRAME_SIZE && k != ADDRESS_DIGIT[offset - 2] && k != ADDRESS_DIGIT[offset - 1] ==>
              r[k] == buf[k]
  {
    if number == ToUint16(FAULT) then
      buf[ADDRESS_DIGIT[offset - 1] := LED_MINUS][ADDRESS_DIGIT[offset - 2] := LED_MINUS]
    else
      var n := if number > 999 then 999 else number;
      if n < 100 then
        FewDigits(n);
        var t := RawDigits(buf, offset, n);
        t[ADDRESS_DIGIT[offset - 2] := t[ADDRESS_DIGIT[offset - 2]] | LED_DP]
      else
        FewDigits(n / 10);
        RawDigits(buf, offset, n / 10)
  }

  /** The reading of positions `offset - 2` and `offset - 1` in tenths: the number shown, times ten unless its decimal point is lit. */
  function Tenths(r: Frame, offset: nat): Option<nat>
    requires |r| == FRAME_SIZE && 2 <= offset <= 4
  {
    match Decode(Window(r, offset - 2, offset))
    case None => None
    case Some(v) => Some(if r[ADDRESS_DIGIT[offset - 2]] & LED_DP != 0 then v else v * 10)
  }

  /** FAULT shows two minus signs, which read as no number. */
  lemma HalfFault(buf: Frame, offset: nat)
    requires |buf| == FRAME_SIZE && 2 <= offset <= 4
    ensures var r := HalfDigits(buf, offset, ToUint16(FAULT));
            && r[ADDRESS_DIGIT[offset - 2]] == LED_MINUS && r[ADDRESS_DIGIT[offset - 1]] == LED_MINUS
            && Decode(Window(r, offset - 2, offset)) == None
  {
    var r := HalfDigits(buf, offset, ToUint16(FAULT));
    var w := Window(r, offset - 2, offset);
    DistinctPositions();
    assert w[0] == LED_MINUS && w[1] == LED_MINUS;
    DigitCodes(LED_MINUS);
    NotADigitLast(w);
  }

  /**
   What one fuel half shows when it is written into blank positions and is not FAULT:
   - a reading in tenths that is exact below 100 and at most 9 tenths low up to 999;
   - the decimal point on the left position exactly when the value is below 100, and never
     on the right position;
   - 99 whole units for any value above 999.
   */
  lemma HalfDigitsReadout(buf: Frame, offset: nat, number: uint16)
    requires |buf| == FRAME_SIZE && 2 <= offset <= 4 && Blank(buf, offset - 2, offset)
    requires number != ToUint16(FAULT)
    ensures var r := HalfDigits(buf, offset, number);
            && Decode(Window(r, offset - 2, offset)) == Some(HalfShown(number))
            && r[ADDRESS_DIGIT[offset - 1]] & LED_DP == 0
            && (r[ADDRESS_DIGIT[offset - 2]] & LED_DP != 0 <==> number < 100)
    ensures var t := Tenths(HalfDigits(buf, offset, number), offset);
            && t.Some? && t.value <= Min(number, 999) < t.value + 10
            && (number < 100 ==> t.value == number)
    ensures number > 999 ==> HalfShown(number) == 99
  {
    if number < 100 {
      HalfTenths(buf, offset, number);
    } else {
      HalfWhole(buf, offset, number);
    }
  }

  /** Below 100: the digits in tenths, with the decimal point on the left position. */
  lemma HalfTenths(buf: Frame, offset: nat, number: uint16)
    requires |buf| == FRAME_SIZE && 2 <= offset <= 4 && Blank(buf, offset - 2, offset)
    requires number < 100 && number != ToUint16(FAULT)
    ensures var r := HalfDigits(buf, offset, number);
            && Decode(Window(r, offset - 2, offset)) == Some(number as nat)
            && r[ADDRESS_DIGIT[offset - 1]] & LED_DP == 0
            && r[ADDRESS_DIGIT[offset - 2]] & LED_DP != 0
  {
    FewDigits(number);
    var t := RawDigits(buf, offset, number);
    RawDigitsReadBack(buf, offset - 2, offset, number);
    PointHidden(t, ADDRESS_DIGIT[offset - 2], offset - 2, offset);
    DistinctPositions();
    DigitGlyph(number % 10);
  }

  /**
   Worked cases of the trade-off, with FAULT below zero as a `word` can never equal it here:
   85 shows "8.5", 850 shows "85" without a point, and 1000 is clamped and shows "99".
   */
  lemma HalfExamples()
    requires FAULT < 0
    ensures var r := HalfDigits(Cleared(), 2, 85);
            Decode(Window(r, 0, 2)) == Some(85) && r[ADDRESS_DIGIT[0]] & LED_DP != 0
    ensures var r := HalfDigits(Cleared(), 2, 850);
            Decode(Window(r, 0, 2)) == Some(85) && r[ADDRESS_DIGIT[0]] & LED_DP == 0
    ensures var r := HalfDigits(Cleared(), 2, 1000);
            Decode(Window(r, 0, 2)) == Some(99) && r[ADDRESS_DIGIT[0]] & LED_DP == 0
  {
    CleanBlank();
    HalfDigitsReadout(Cleared(), 2, 85);
    HalfDigitsReadout(Cleared(), 2, 850);
    HalfDigitsReadout(Cleared(), 2, 1000);
  }

  /** From 100 on: two digits in whole units of the value clamped at 999, neither with its decimal point. */
  lemma HalfWhole(buf: Frame, offset: nat, number: uint16)
    requires |buf| == FRAME_SIZE && 2 <= offset <= 4 && Blank(buf, offset - 2, offset)
    requires 100 <= number && number != ToUint16(FAULT)
    ensures var r := HalfDigits(buf, offset, number);
            && Decode(Window(r, offset - 2, offset)) == Some(Min(number, 999) / 10)
            && r[ADDRESS_DIGIT[offset - 1]] & LED_DP == 0
            && r[ADDRESS_DIGIT[offset - 2]] & LED_DP == 0
  {
    var n := Min(number, 999);
    FewDigits(n / 10);
    RawDigitsReadBack(buf, offset - 2, offset, n / 10);
    assert NumDigits(n / 10) == 2;
    DigitGlyph(DigitAt(n / 10, 0));
    DigitGlyph(DigitAt(n / 10, 1));
  }

  /**
   The frame of `printLEDFuel(left, right)`: a cleared frame with the left tank on digit
   positions 0 and 1, the right tank on positions 2 and 3, each converted to a `word` as the
   call does, and the colon lit between them.
   */
  function FuelFrame(left: int16, right: int16): (f: Frame)
    ensures |f| == FRAME_SIZE
    ensures f[5] == LED_COLON
    ensures forall k :: 0 <= k < FRAME_SIZE && !IsDigitSlot(k) && k != 5 ==> f[k] == 0
  {
    HalfDigits(HalfDigits(Cleared(), 2, ToUint16(left)), 4, ToUint16(right))[5 := LED_COLON]
  }

  /** `printLEDFuel(left, right)`: the fuel frame, sent to the second display. */
  function PrintFuel(bus: Bus, left: int16, right: int16): (o: Output)
    ensures o.frame == FuelFrame(left, right)
    ensures o.bus == WriteI2C(bus, 1, o.frame)
  {
    var f := FuelFrame(left, right);
    Output(f, WriteI2C(bus, 1, f))
  }

  /** Each tank depends only on its own argument: slots 1 and 3 only on `left`, slots 7 and 9 only on `right`. */
  lemma FuelSides(left: int16, right: int16)
    ensures var f, l := FuelFrame(left, right), HalfDigits(Cleared(), 2, ToUint16(left));
            f[1] == l[1] && f[3] == l[3]
    ensures var f, r := FuelFrame(left, right), HalfDigits(Cleared(), 4, ToUint16(right));
            f[7] == r[7] && f[9] == r[9]
  {
    var l := HalfDigits(Cleared(), 2, ToUint16(left));
    var b := HalfDigits(l, 4, ToUint16(right));
    assert b[1] == l[1] && b[3] == l[3];
    assert HalfDigits(Cleared(), 4, ToUint16(right))[7] == b[7] by {
      SameRight(Cleared(), l, ToUint16(right));
    }
    SameRight(Cleared(), l, ToUint16(right));
  }

  /** The right half depends only on the right positions of the frame it is written into. */
  lemma SameRight(a: Frame, b: Frame, number: uint16)
    requires |a| == FRAME_SIZE && |b| == FRAME_SIZE && a[7] == b[7] && a[9] == b[9]
    ensures HalfDigits(a, 4, number)[7] == HalfDigits(b, 4, number)[7]
    ensures HalfDigits(a, 4, number)[9] == HalfDigits(b, 4, number)[9]
  {
  }

  /**
   What the left tank reads as: two minus signs for FAULT; otherwise the value that
   `printLEDRawHalfDigits` shows, with the decimal point on the left digit of the pair
   exactly when the value is below 100 as a `word`.
   */
  lemma FuelLeftReadout(left: int16, right: int16)
    ensures var f := FuelFrame(left, right);
            left == FAULT ==> f[1] == LED_MINUS && f[3] == LED_MINUS
    ensures var f := FuelFrame(left, right);
            left != FAULT ==> Decode(Window(f, 0, 2)) == Some(HalfShown(ToUint16(left)))
                              && (f[1] & LED_DP != 0 <==> ToUint16(left) < 100)
  {
    FuelSides(left, right);
    if left == FAULT {
      HalfFault(Cleared(), 2);
    } else {
      FuelLeftValue(left, right);
    }
  }

  /** The left tank, when it is not FAULT. */
  lemma FuelLeftValue(left: int16, right: int16)
    requires left != FAULT
    ensures var f := FuelFrame(left, right);
            Decode(Window(f, 0, 2)) == Some(HalfShown(ToUint16(left))) && (f[1] & LED_DP != 0 <==> ToUint16(left) < 100)
  {
    var f := FuelFrame(left, right);
    var l := HalfDigits(Cleared(), 2, ToUint16(left));
    FuelSides(left, right);
    CleanBlank();
    WordsDiffer(left, FAULT);
    HalfDigitsReadout(Cleared(), 2, ToUint16(left));
    SameWindow(f, l, 0, 2);
  }

  /** The right tank reads the same way on slots 7 and 9. */
  lemma FuelRightReadout(left: int16, right: int16)
    ensures var f := FuelFrame(left, right);
            right == FAULT ==> f[7] == LED_MINUS && f[9] == LED_MINUS
    ensures var f := FuelFrame(left, right);
            right != FAULT ==> Decode(Window(f, 2, 4)) == Some(HalfShown(ToUint16(right)))
                               && (f[7] & LED_DP != 0 <==> ToUint16(right) < 100)
  {
    FuelSides(left, right);
    if right == FAULT {
      HalfFault(Cleared(), 4);
    } else {
      FuelRightValue(left, right);
    }
  }

  /** The right tank, when it is not FAULT. */
  lemma FuelRightValue(left: int16, right: int16)
    requires right != FAULT
    ensures var f := FuelFrame(left, right);
            Decode(Window(f, 2, 4)) == Some(HalfShown(ToUint16(right))) && (f[7] & LED_DP != 0 <==> ToUint16(right) < 100)
  {
    var f := FuelFrame(left, right);
    var r := HalfDigits(Cleared(), 4, ToUint16(right));
    FuelSides(left, right);
    CleanBlank();
    WordsDiffer(right, FAULT);
    HalfDigitsReadout(Cleared(), 4, ToUint16(right));
    SameWindow(f, r, 2, 4);
  }

  /** Two frames that agree on digit positions `lo` to `hi - 1` show the same there. */
  lemma SameWindow(f: Frame, g: Frame, lo: nat, hi: nat)
    requires |f| == FRAME_SIZE && |g| == FRAME_SIZE && lo <= hi <= 4
    requires forall j :: lo <= j < hi ==> f[ADDRESS_DIGIT[j]] == g[ADDRESS_DIGIT[j]]
    ensures Window(f, lo, hi) == Window(g, lo, hi)
  {
  }

  /** A cleared frame is blank in every digit position. */
  lemma CleanBlank()
    ensures Blank(Cleared(), 0, 2) && Blank(Cleared(), 2, 4)
  {
  }

  /** Two different 16-bit `int`s stay different as `word`s. */
  lemma WordsDiffer(a: int16, b: int16)
    ensures a != b ==> ToUint16(a) != ToUint16(b)
  {
  }

  /**
   A negative fuel level other than FAULT wraps to a large `word`. It therefore reads as 99
   whole units with no decimal point, not as 0.
   */
  lemma NegativeFuelReads99(left: int16, right: int16)
    requires left < 0 && left != FAULT
    ensures var f := FuelFrame(left, right);
            Decode(Window(f, 0, 2)) == Some(99) && f[1] & LED_DP == 0
  {
    assert ToUint16(left) == left + 0x1_0000;
    FuelLeftReadout(left, right);
  }

  /** Every frame these routines build starts with display-RAM address 0. */
  lemma FramesStartAtAddressZero(ind: Indicators, line: uint8, a: bv8, b: bv8, c: bv8, d: bv8,
                                 number: int16, decimal: uint8, left: int16, right: int16)
    requires decimal <= 3
    ensures CharsFrame(ind, line, a, b, c, d)[0] == 0
    ensures NumberFrame(ind.alarmStatus, line, number, decimal)[0] == 0
    ensures FuelFrame(left, right)[0] == 0
  {
    NumberDecimalPoint(ind.alarmStatus, line, number, decimal);
  }
}

=== FILE: platform.dfy ===
/**
 The integer widths of the 8-bit AVR target the instrument cluster runs on, the C
 conversions between them, and the FAULT sentinel every stage of the pipeline shares.

 On this target `int` is 16 bits, `word` is an unsigned 16-bit value, `byte` is 8 bits
 and `long` is 32 bits. Dafny integers are unbounded, so every place where the C code
 narrows a value or lets it wrap goes through one of the conversions below.
 */
module Platform {

  type uint8 = x: int | 0 <= x < 0x100
  type uint16 = x: int | 0 <= x < 0x1_0000
  type uint32 = x: int | 0 <= x < 0x1_0000_0000
  type int16 = x: int | -0x8000 <= x < 0x8000

  /** A value that may be absent (a null pointer in the C code). */
  datatype Option<+T> = None | Some(value: T)

  /** "No valid reading". Its value is defined outside the modelled files; every proof holds for any value. */
  const FAULT: int16

  /** C's conversion of an integer to an 8-bit unsigned value: reduction modulo 2^8. */
  function ToUint8(x: int): (r: uint8)
    ensures (x - r) % 0x100 == 0
    ensures 0 <= x < 0x100 ==> r == x
  {
    x % 0x100
  }

  /** C's conversion of an integer to a 16-bit unsigned value: reduction modulo 2^16. */
  function ToUint16(x: int): (r: uint16)
    ensures (x - r) % 0x1_0000 == 0
    ensures 0 <= x < 0x1_0000 ==> r == x
  {
    x % 0x1_0000
  }

  /** C's conversion of an integer to a 16-bit signed value (two's complement wrap, as the compiler does it). */
  function ToInt16(x: int): (r: int16)
    ensures (x - r) % 0x1_0000 == 0
    ensures -0x8000 <= x < 0x8000 ==> r == x
  {
    var w := x % 0x1_0000;
    if w < 0x8000 then w else w - 0x1_0000
  }

  /** C's integer division, which truncates toward zero (Dafny's `/` is Euclidean). */
  function CDiv(a: int, b: int): (q: int)
    requires b != 0
    ensures 0 <= a && 0 < b ==> q == a / b
    ensures a < 0 && 0 < b ==> q == -((-a) / b)
  {
    var m := (if a < 0 then -a else a) / (if b < 0 then -b else b);
    if (a < 0) == (b < 0) then m else -m
  }

  function Min(a: int, b: int): int {
    if a <= b then a else b
  }
}

=== FILE: sample_store.dfy ===
/**
 The sample store of the sensor pipeline (enguino/sensors.h): the rotating ADC sample
 matrix, the eight-slot tachometer ring, the fuel-flow pulse counters and rate window,
 the hobbs prescaler, and the persisted hobbs/fuel totals with their dirty flag.

 Every routine is a pure transition on one immutable `Store` record. Interrupt handlers
 and `noInterrupts()` blocks are atomic steps; hardware reads (`analogRead`, `micros`)
 are parameters.
 */
module SampleStore {
  import opened Platform

  /** Once an hour is split into this many hobbs ticks (one every `HOBBS_COUNT_INTERVAL` calls). */
  const HOBBS_COUNT_INTERVAL: int := 3600 / 40
  /** The largest value of the low hobbs counter; one more wraps it to 0 and carries into `hobbs1k`. */
  const HOBBS_MAX: int := 39999
  const ADC_CHANNELS: int := 12
  const RPM_SLOTS: int := 8
  /** Pulses per revolution of the tachometer input; defined outside the modelled files. */
  type Positive = x: int | x > 0 witness 1
  const TACH_DIVIDER: Positive

  /** The persisted totals. Their C widths are declared outside the modelled files. */
  datatype EeStatus = EeStatus(hobbs: nat, hobbs1k: nat, fuel: int)

  datatype Store = Store(
    adcSample: seq<seq<int16>>,   // [channel][round-robin column]
    adcIndex: uint8,
    tachDidPulse: bool,
    rpm: seq<int16>,
    rpmInx: uint8,                // static inside tachIRQ
    lastTachTime: uint32,         // static inside tachIRQ
    fflowCount: uint16,
    fflowRunning: uint16,
    fflowRate: uint16,
    ffRunning: seq<uint16>,
    ffRunningInx: uint8,
    hobbsCount: uint8,
    status: EeStatus,
    dirty: bool)

  /** The array shapes of the C globals, and the indices that are used to subscript them. */
  ghost predicate Valid(s: Store) {
    && |s.adcSample| == ADC_CHANNELS
    && (forall i :: 0 <= i < ADC_CHANNELS ==> |s.adcSample[i]| == 4)
    && s.adcIndex < 4
    && |s.rpm| == RPM_SLOTS
    && |s.ffRunning| == 4
    && s.ffRunningInx < 4
  }

  /** The total engine time in hobbs ticks (1/40 hour) held by the two persisted counters. */
  function HobbsTicks(st: EeStatus): nat {
    st.hobbs1k * (HOBBS_MAX + 1) + st.hobbs
  }

  /**
   The store at power-on after `sensorSetup`: zero-initialised globals, half a hobbs
   interval and half a k-factor preloaded (each accounts for time lost at the last
   shutdown), and the totals read back from nonvolatile storage.
   */
  function PowerOn(status: EeStatus, kFactor: uint16): (s: Store)
    ensures Valid(s)
    ensures s.hobbsCount == HOBBS_COUNT_INTERVAL / 2 && s.fflowCount == kFactor / 2
    ensures s.status == status && !s.dirty && !s.tachDidPulse
  {
    Store(seq(ADC_CHANNELS, _ => [0, 0, 0, 0]), 0, false, seq(RPM_SLOTS, _ => 0), 0, 0,
          kFactor / 2, 0, 0, [0, 0, 0, 0], 0, HOBBS_COUNT_INTERVAL / 2, status, false)
  }

  // ---------------------------------------------------------------------------
  // Periodic tick

  /** Half-second tick: rate = running pulse count minus the count stored four ticks ago. */
  function UpdateFuelFlow(s: Store): (r: Store)
    requires |s.ffRunning| == 4
    ensures r.ffRunningInx == (s.ffRunningInx + 1) % 4
    ensures |r.ffRunning| == 4 && r.ffRunning[r.ffRunningInx] == s.fflowRunning
    ensures forall j :: 0 <= j < 4 && j != r.ffRunningInx ==> r.ffRunning[j] == s.ffRunning[j]
    ensures (s.fflowRunning - s.ffRunning[r.ffRunningInx] - r.fflowRate) % 0x1_0000 == 0
    ensures r == s.(ffRunningInx := r.ffRunningInx, ffRunning := r.ffRunning, fflowRate := r.fflowRate)
  {
    var inx := ToUint8(s.ffRunningInx + 1) % 4;   // `ffRunningInx++; ffRunningInx &= 3`
    s.(ffRunningInx := inx,
       fflowRate := ToUint16(s.fflowRunning - s.ffRunning[inx]),
       ffRunning := s.ffRunning[inx := s.fflowRunning])
  }

  /** A tick with no tachometer pulse since the last one means the engine stopped: the ring is zeroed. */
  function UpdateTach(s: Store): (r: Store)
    ensures !r.tachDidPulse
    ensures s.tachDidPulse ==> r.rpm == s.rpm
    ensures !s.tachDidPulse ==> |r.rpm| == RPM_SLOTS && forall j :: 0 <= j < RPM_SLOTS ==> r.rpm[j] == 0
    ensures r == s.(tachDidPulse := false, rpm := r.rpm)
  {
    if s.tachDidPulse then s.(tachDidPulse := false)
    else s.(rpm := seq(RPM_SLOTS, _ => 0))
  }

  /** One hobbs prescaler step: the persisted counter advances once every `HOBBS_COUNT_INTERVAL` calls. */
  function UpdateHobbs(s: Store): (r: Store)
    ensures s.hobbsCount != 1 ==> r == s.(hobbsCount := (s.hobbsCount + 0xFF) % 0x100)
    ensures s.hobbsCount == 1 ==> r == s.(hobbsCount := HOBBS_COUNT_INTERVAL, status := r.status, dirty := true)
    ensures s.hobbsCount == 1 ==> r.status.fuel == s.status.fuel
    ensures s.hobbsCount == 1 && s.status.hobbs < HOBBS_MAX ==>
              r.status.hobbs == s.status.hobbs + 1 && r.status.hobbs1k == s.status.hobbs1k
    ensures s.hobbsCount == 1 && s.status.hobbs >= HOBBS_MAX ==>
              r.status.hobbs == 0 && r.status.hobbs1k == s.status.hobbs1k + 1
  {
    var count := ToUint8(s.hobbsCount - 1);   // `--hobbsCount` on a byte
    if count == 0 then
      var st := if s.status.hobbs + 1 > HOBBS_MAX
                then s.status.(hobbs := 0, hobbs1k := s.status.hobbs1k + 1)
                else s.status.(hobbs := s.status.hobbs + 1);
      s.(status := st, dirty := true, hobbsCount := HOBBS_COUNT_INTERVAL)
    else
      s.(hobbsCount := count)
  }

  /** The two hobbs counters form one mixed-radix counter: an advance adds exactly one tick to the total. */
  lemma HobbsAdvanceAddsOneTick(s: Store)
    requires s.hobbsCount == 1
    requires s.status.hobbs <= HOBBS_MAX
    ensures HobbsTicks(UpdateHobbs(s).status) == HobbsTicks(s.status) + 1
    ensures UpdateHobbs(s).status.hobbs <= HOBBS_MAX
  {
  }

  /** Round-robin ADC sweep: column `adcIndex` of every channel takes the new reading. */
  function UpdateADC(s: Store, readings: seq<int16>): (r: Store)
    requires Valid(s)
    requires |readings| == ADC_CHANNELS
    ensures Valid(r)
    ensures r.adcIndex == (s.adcIndex + 1) % 4
    ensures forall i :: 0 <= i < ADC_CHANNELS ==> r.adcSample[i][s.adcIndex] == readings[i]
    ensures forall i, j :: 0 <= i < ADC_CHANNELS && 0 <= j < 4 && j != s.adcIndex ==>
              r.adcSample[i][j] == s.adcSample[i][j]
    ensures r == s.(adcSample := r.adcSample, adcIndex := r.adcIndex)
  {
    var column := s.adcIndex;
    var samples := seq(ADC_CHANNELS, i requires 0 <= i < ADC_CHANNELS =>
                         s.adcSample[i][column := readings[i]]);
    s.(adcSample := samples, adcIndex := ToUint8(s.adcIndex + 1) % 4)   // `adcIndex++; adcIndex &= 3`
  }

  // ---------------------------------------------------------------------------
  // Interrupt handlers

  /** Incrementing a byte wraps at 256, which a ring of `m` slots (m dividing 256) does not notice. */
  lemma ByteIncrementModulo(x: uint8, m: int)
    requires m == 4 || m == 8
    ensures ToUint8(x + 1) % m == (x % m + 1) % m
  {
    if x == 0xFF {
      assert ToUint8(x + 1) == 0;
    } else if m == 4 {
      assert ToUint8(x + 1) == x + 1;
      assert (x + 1) % 4 == (x % 4 + 1) % 4;
    } else {
      assert ToUint8(x + 1) == x + 1;
      assert (x + 1) % 8 == (x % 8 + 1) % 8;
    }
  }

  /** The RPM a tachometer interval of `delta` microseconds stands for, narrowed to the `int` ring slot. */
  function PulseRpm(delta: uint32): int16
    requires delta != 0
  {
    ToInt16((60000000 / TACH_DIVIDER) / delta)
  }

  /** The microseconds since the previous tachometer edge (unsigned long subtraction). */
  function TachInterval(s: Store, now: uint32): uint32 {
    (now - s.lastTachTime) % 0x1_0000_0000
  }

  /** Tachometer edge: one ring slot takes the new RPM, the ring index advances and the pulse flag is set. */
  function TachIRQ(s: Store, now: uint32): (r: Store)
    requires |s.rpm| == RPM_SLOTS
    requires TachInterval(s, now) != 0   // `micros()` unchanged since the last edge divides by zero
    ensures |r.rpm| == RPM_SLOTS
    ensures r.rpm[s.rpmInx % 8] == PulseRpm(TachInterval(s, now))
    ensures forall j :: 0 <= j < RPM_SLOTS && j != s.rpmInx % 8 ==> r.rpm[j] == s.rpm[j]
    ensures r.rpmInx % 8 == (s.rpmInx % 8 + 1) % 8
    ensures r.tachDidPulse && r.lastTachTime == now
    ensures r == s.(rpm := r.rpm, rpmInx := r.rpmInx, tachDidPulse := true, lastTachTime := now)
  {
    var slot := s.rpmInx % 8;   // `rpmInx++ & 7`
    ByteIncrementModulo(s.rpmInx, 8);
    s.(rpm := s.rpm[slot := PulseRpm(TachInterval(s, now))],
       rpmInx := ToUint8(s.rpmInx + 1),
       lastTachTime := now,
       tachDidPulse := true)
  }

  /**
   Fuel-flow edge: both pulse counters advance; when the bounded counter reaches the
   k-factor it restarts at 0 and one unit of fuel is consumed, never below zero.
   */
  function FflowIRQ(s: Store, kFactor: uint16): (r: Store)
    ensures r.fflowRunning == (s.fflowRunning + 1) % 0x1_0000
    ensures ToUint16(s.fflowCount + 1) < kFactor ==> r.fflowCount == ToUint16(s.fflowCount + 1)
    ensures ToUint16(s.fflowCount + 1) >= kFactor ==> r.fflowCount == 0
    ensures var dropped := ToUint16(s.fflowCount + 1) >= kFactor && s.status.fuel > 0;
            && r.status.fuel == (if dropped then s.status.fuel - 1 else s.status.fuel)
            && r.dirty == (dropped || s.dirty)
    ensures s.status.fuel >= 0 ==> r.status.fuel >= 0
    ensures r == s.(fflowCount := r.fflowCount, fflowRunning := r.fflowRunning,
                    status := s.status.(fuel := r.status.fuel), dirty := r.dirty)
  {
    var count := ToUint16(s.fflowCount + 1);
    var running := ToUint16(s.fflowRunning + 1);
    if count >= kFactor then
      if s.status.fuel > 0 then
        s.(fflowCount := 0, fflowRunning := running, status := s.status.(fuel := s.status.fuel - 1), dirty := true)
      else
        s.(fflowCount := 0, fflowRunning := running)
    else
      s.(fflowCount := count, fflowRunning := running)
  }
}

=== FILE: sensor_reader.dfy ===
/**
 The sensor reader and alert evaluator of the pipeline (enguino/sensors.h): the two
 constant linearisation tables, the four-sample average, the denoised tachometer reading,
 `readSensor`, `scaleValue` and `alertState`.

 `interpolate`, `multiplyAndScale` and `multiply` are defined outside the modelled files;
 they are the fields of an `Arith` record the caller supplies, so every property below
 holds whatever they compute. The same goes for the constants declared without a value.
 */
module SensorReader {
  import opened Platform
  import opened SampleStore
  import Sort

  // ---------------------------------------------------------------------------
  // Linearisation tables

  /**
   A piecewise-linear table: one step byte per segment and one output per breakpoint.
   `count` is the number of outputs; the meaning of `origin` belongs to `interpolate`.
   */
  datatype InterpolateTable = InterpolateTable(origin: int, count: int, steps: seq<uint8>, values: seq<int16>)

  ghost predicate WellFormedTable(t: InterpolateTable) {
    && |t.steps| + 1 == |t.values| == t.count
    && (forall i :: 0 <= i < |t.steps| ==> t.steps[i] > 0)
    && (forall i :: 0 < i < |t.values| ==> t.values[i] < t.values[i - 1])
  }

  /** Thermistor resistance to tenths of a degree Celsius. */
  const THERMISTOR := InterpolateTable(64, 32,
    [3, 3, 3, 3, 3, 3, 4, 4,
     4, 4, 4, 4, 4, 5, 5, 5,
     5, 5, 6, 6, 7, 6, 6, 5,
     5, 5, 5, 4, 4, 4, 4],
    [1500, 1438, 1384, 1336, 1293, 1254, 1219, 1155,
     1100, 1051, 1008, 968, 932, 898, 838, 784,
     736, 692, 650, 575, 505, 375, 310, 241,
     204, 164, 121, 72, 44, 14, -19, -58])

  /** A 240-33 ohm resistive sender behind a 240 ohm divider. */
  const R240TO33 := InterpolateTable(48, 28,
    [5, 5, 5, 5, 4, 4, 4, 4, 4, 4, 4, 4, 4, 4,
     4, 4, 4, 4, 4, 4, 4, 4, 4, 4, 4, 4, 4],
    [1105, 1064, 1019, 972, 921, 894, 866,
     837, 806, 775, 742, 707, 671, 634,
     595, 553, 510, 465, 417, 367, 314,
     258, 199, 137, 70, 0, -75, -155])

  /** The thermistor table lists one step fewer than outputs, every step is positive and the outputs strictly decrease. */
  lemma ThermistorWellFormed()
    ensures WellFormedTable(THERMISTOR)
  {
  }

  /** The same holds of the resistive-sender table. */
  lemma SenderTableWellFormed()
    ensures WellFormedTable(R240TO33)
  {
  }

  // ---------------------------------------------------------------------------
  // Collaborators and configuration

  /** The arithmetic helpers the reader calls; their bodies are not part of this model. */
  datatype Arith = Arith(
    interpolate: (InterpolateTable, int16) -> int16,
    multiplyAndScale: (int, int, int) -> int16,
    multiply: (int, int) -> int)

  datatype SensorType =
    | Volts | R240to33 | V240to33 | ThermistorC | ThermistorF
    | JTypeTcC | JTypeTcF | KTypeTcF
    | Plain   // every other type: no per-type transform

  /** A sensor descriptor: channel, type, display scaling and four alert thresholds. */
  datatype Sensor = Sensor(
    pin: int16, kind: SensorType, vfactor: int16, voffset: int16,
    lowWarning: int16, lowCaution: int16, highCaution: int16, highWarning: int16)

  // Defined outside the modelled files.
  const DUAL_BIT: int16
  const HOBBS_SENSOR: int
  const FUELF_SENSOR: int
  const FUELR_SENSOR: int
  const TACH_SENSOR: int
  const DIVISOR: int
  /** `SCALE(RVscale)`: a compile-time floating-point expression, taken as an opaque integer. */
  const RV_SCALE: int
  const RV_OFF: int := -495
  const ALERT_FAULT: bv8
  const WARNING_LOW: bv8
  const CAUTION_LOW: bv8
  const WARNING_HIGH: bv8
  const CAUTION_HIGH: bv8

  // ---------------------------------------------------------------------------
  // Averaging and the tachometer

  /** Two's complement addition does not care when the wrap happens. */
  lemma WrapAdd(a: int, b: int)
    ensures ToInt16(ToInt16(a) + b) == ToInt16(a + b)
  {
    var q := a / 0x1_0000;
    assert a % 0x1_0000 == a - q * 0x1_0000;
    assert (ToInt16(a) + b) % 0x1_0000 == (a + b - q * 0x1_0000) % 0x1_0000 == (a + b) % 0x1_0000;
  }

  function Sum4(samples: seq<int16>): int
    requires |samples| == 4
  {
    samples[0] as int + samples[1] + samples[2] + samples[3]
  }

  /** The mean of four samples, rounded down, as long as their sum fits in an `int`. */
  function Average4(samples: seq<int16>): (avg: int16)
    requires |samples| == 4
    ensures var sum := Sum4(samples);
            -0x8000 <= sum < 0x8000 ==> avg * 4 <= sum < avg * 4 + 4
  {
    // `avg += *samples++` keeps a 16-bit running sum
    var sum := ToInt16(ToInt16(ToInt16(samples[0] as int + samples[1]) + samples[2]) + samples[3]);
    WrapAdd(samples[0] as int + samples[1], samples[2]);
    WrapAdd(samples[0] as int + samples[1] + samples[2], samples[3]);
    sum / 4   // `>> 2` on a signed int rounds toward minus infinity
  }

  /** The RPM reading: the ring sorted, its two lowest and two highest slots dropped, the middle four averaged. */
  function TachReading(ring: seq<int16>): (r: int16)
    requires |ring| == RPM_SLOTS
    ensures var m := Sort.SortInts(ring);
            -0x2000 <= m[2] && m[5] < 0x2000 ==> 4 * r <= m[2] + m[3] + m[4] + m[5] < 4 * r + 4
  {
    var sorted := Sort.SortInts(ring);
    Average4(sorted[2..6])   // `r + N(r)/2 - 2`
  }

  /** The reading depends on the ring's contents, not on which slot holds what. */
  lemma TachOrderIndependent(a: seq<int16>, b: seq<int16>)
    requires |a| == |b| == RPM_SLOTS
    requires multiset(a) == multiset(b)
    ensures TachReading(a) == TachReading(b)
  {
    Sort.SortedUnique(Sort.SortInts(a), Sort.SortInts(b));
  }

  /**
   The reading lies between the third-lowest and third-highest slot, so two outliers on
   either side cannot move it, however far out they are. The middle four must be small
   enough that their sum fits in an `int`; the outliers may be anything.
   */
  lemma TachBetweenMiddleSlots(ring: seq<int16>, sorted: seq<int16>)
    requires |ring| == RPM_SLOTS
    requires |sorted| == RPM_SLOTS && Sort.Sorted(sorted) && multiset(sorted) == multiset(ring)
    requires -0x2000 <= sorted[2] && sorted[5] < 0x2000
    ensures sorted[2] <= TachReading(ring) <= sorted[5]
  {
    Sort.SortedUnique(Sort.SortInts(ring), sorted);
  }

  /** The reading lies between the smallest and the largest slot of the ring, whatever the outliers. */
  lemma TachWithinRing(ring: seq<int16>)
    requires |ring| == RPM_SLOTS
    requires -0x2000 <= Sort.SortInts(ring)[2] && Sort.SortInts(ring)[5] < 0x2000
    ensures exists i :: 0 <= i < RPM_SLOTS && ring[i] <= TachReading(ring)
    ensures exists j :: 0 <= j < RPM_SLOTS && TachReading(ring) <= ring[j]
  {
    var sorted := Sort.SortInts(ring);
    TachBetweenMiddleSlots(ring, sorted);
    var t := TachReading(ring);
    var i := SlotOf(ring, sorted, 2);
    var j := SlotOf(ring, sorted, 5);
    assert 0 <= i < RPM_SLOTS && ring[i] <= t;
    assert 0 <= j < RPM_SLOTS && t <= ring[j];
  }

  /** Every slot of a rearrangement is some slot of the original. */
  lemma SlotOf(ring: seq<int16>, sorted: seq<int16>, k: nat) returns (i: nat)
    requires multiset(sorted) == multiset(ring) && k < |sorted|
    ensures i < |ring| && ring[i] == sorted[k]
  {
    assert sorted[k] in multiset(sorted);
    i :| i < |ring| && ring[i] == sorted[k];
  }

  /** Any sorted arrangement of the ring gives the reading: it is the average of that arrangement's middle four. */
  lemma TachFromSorted(ring: seq<int16>, sorted: seq<int16>)
    requires |ring| == RPM_SLOTS
    requires Sort.Sorted(sorted) && multiset(sorted) == multiset(ring)
    ensures |sorted| == RPM_SLOTS && TachReading(ring) == Average4(sorted[2..6])
  {
    Sort.SortedUnique(Sort.SortInts(ring), sorted);
  }

  /** One wild slot above and one below six steady ones are both thrown away,
      however far out they are (a 9999 and a 1 among six readings of 100, say). */
  lemma TachRejectsOutliers(ring: seq<int16>, steady: int16, low: int16, high: int16)
    requires |ring| == RPM_SLOTS && ring[6] == high && ring[7] == low
    requires forall i :: 0 <= i < 6 ==> ring[i] == steady
    requires low <= steady <= high && -0x2000 <= steady < 0x2000
    ensures TachReading(ring) == steady
  {
    var sorted := [low] + ring[..6] + [high];
    OutlierPermutation(ring, sorted);
    OutlierOrder(sorted, steady);
    SteadyMiddle(ring, sorted, steady);
  }

  /** Six steady slots between one low and one high slot are in ascending order. */
  lemma OutlierOrder(sorted: seq<int16>, steady: int16)
    requires |sorted| == RPM_SLOTS && sorted[0] <= steady <= sorted[7]
    requires forall i :: 1 <= i < 7 ==> sorted[i] == steady
    ensures Sort.Sorted(sorted)
  {
    Sort.SortedFromNeighbours(sorted);
  }

  /** Moving the last slot of a ring to the front keeps its contents. */
  lemma OutlierPermutation(ring: seq<int16>, sorted: seq<int16>)
    requires |ring| == RPM_SLOTS
    requires sorted == [ring[7]] + ring[..6] + [ring[6]]
    ensures multiset(sorted) == multiset(ring)
  {
    assert ring == ring[..6] + [ring[6]] + [ring[7]];
  }

  /** A ring whose four middle slots, once sorted, agree reads as that common value. */
  lemma SteadyMiddle(ring: seq<int16>, sorted: seq<int16>, steady: int16)
    requires |ring| == |sorted| == RPM_SLOTS && -0x2000 <= steady < 0x2000
    requires Sort.Sorted(sorted) && multiset(sorted) == multiset(ring)
    requires sorted[2] == sorted[3] == sorted[4] == sorted[5] == steady
    ensures TachReading(ring) == steady
  {
    TachFromSorted(ring, sorted);
    SteadyAverage(sorted[2..6], steady);
  }

  /** Four equal samples average to their common value. */
  lemma SteadyAverage(samples: seq<int16>, x: int16)
    requires |samples| == 4 && -0x2000 <= x < 0x2000
    requires samples[0] == samples[1] == samples[2] == samples[3] == x
    ensures Average4(samples) == x
  {
    assert Sum4(samples) == 4 * x;
  }

  // ---------------------------------------------------------------------------
  // Unit conversion

  /** `(v*9)/5 + toF` in 16-bit `int` arithmetic with C's truncating division. */
  function ToFahrenheit(v: int16, toF: int16): (r: int16)
    ensures -3640 <= v <= 3640 && -0x8000 <= CDiv(v * 9, 5) + toF < 0x8000 ==> r == CDiv(v * 9, 5) + toF
  {
    ToInt16(CDiv(ToInt16(v * 9), 5) + toF)
  }

  /** The Fahrenheit step, skipped for a FAULT reading. */
  function ConvertUnlessFault(v: int16, toF: int16): (r: int16)
    ensures v == FAULT ==> r == FAULT
    ensures v != FAULT ==> r == ToFahrenheit(v, toF)
  {
    if v != FAULT then ToFahrenheit(v, toF) else v
  }

  /**
   While `v*9` fits in an `int` (|v| up to 3640) and the result does too, the conversion is
   the exact `9/5 v + toF`, truncated toward zero: rounded down for a reading at or above
   0 and rounded up for one below.
   */
  lemma FahrenheitExact(v: int16, toF: int16)
    requires -3640 <= v <= 3640
    requires -0x8000 <= CDiv(v * 9, 5) + toF < 0x8000
    ensures var r := ToFahrenheit(v, toF);
            && (v >= 0 ==> 5 * (r - toF) <= 9 * v < 5 * (r - toF) + 5)
            && (v < 0 ==> 5 * (r - toF) - 5 < 9 * v <= 5 * (r - toF))
  {
  }

  /** 100.0 C is 212.0 F and 0 C is 32.0 F in tenths; 1000 C in quarter degrees overflows the `int` product. */
  lemma FahrenheitExamples()
    ensures ToFahrenheit(1000, 32 * 10) == 2120
    ensures ToFahrenheit(0, 32 * 10) == 320
    ensures ToFahrenheit(-400, 32 * 10) == -400
    ensures ToFahrenheit(4000, 32 * 4) < 0
  {
  }

  // ---------------------------------------------------------------------------
  // Channel routing

  /** Where a descriptor's channel is read from. */
  datatype Route =
    | Absent                     // negative channel: always FAULT
    | Hobbs | FuelFlow | FuelRemaining | Tach
    | Analog(channel: nat)       // an ADC channel below 12
    | Thermocouple(index: nat)   // channels 16 to 23: `tcTemp[p-16]`
    | Unsupported(channel: nat)  // 12-15 would read past `adcSample`; 24 and up leave `v` unset

  /** `p &= (DUAL_BIT-1)` on a non-negative channel: drop the dual-mode bit and everything above it. */
  function DualMask(p: int): (c: nat)
    requires 0 <= p < 0x8000
  {
    ((p as bv16) & (ToUint16(DUAL_BIT - 1) as bv16)) as int
  }

  function RouteOf(pin: int16, n: uint8): (r: Route)
    ensures pin + n < 0 ==> r.Absent?
    ensures 0 <= pin + n < 0x8000 ==> !r.Absent?
  {
    var p := ToInt16(pin + n);   // `int p = s->pin + n`
    if p < 0 then Absent
    else
      var c := DualMask(p);
      if c == HOBBS_SENSOR then Hobbs
      else if c == FUELF_SENSOR then FuelFlow
      else if c == FUELR_SENSOR then FuelRemaining
      else if c == TACH_SENSOR then Tach
      else if c < ADC_CHANNELS then Analog(c)
      else if 16 <= c < 24 then Thermocouple(c - 16)
      else Unsupported(c)
  }

  /** The inputs `readSensor` is defined for: a channel it can read, and a k-factor it can divide by. */
  predicate Readable(s: Sensor, n: uint8, kFactor: uint16) {
    var route := RouteOf(s.pin, n);
    !route.Unsupported? && (route.FuelFlow? ==> kFactor != 0)
  }

  // ---------------------------------------------------------------------------
  // Reading

  /** The sensor types whose analog reading goes through a table or a scaling helper. */
  predicate Transformed(kind: SensorType) {
    kind in {Volts, R240to33, V240to33, ThermistorC, ThermistorF}
  }

  /**
   An analog channel's averaged sample through its type's transform. A type without a
   transform reads the sample itself; a Fahrenheit thermistor converts the table's value
   unless the table answered FAULT.
   */
  function AnalogValue(arith: Arith, kind: SensorType, v: int16): (r: int16)
    ensures !Transformed(kind) ==> r == v
    ensures kind == ThermistorF ==> var t := arith.interpolate(THERMISTOR, v);
                                    r == (if t == FAULT then FAULT else ToFahrenheit(t, 32 * 10))
  {
    match kind
    case R240to33 => arith.interpolate(R240TO33, v)
    case V240to33 => arith.multiplyAndScale(RV_SCALE, ToInt16(v + RV_OFF), DIVISOR)
    case ThermistorC => arith.interpolate(THERMISTOR, v)
    case ThermistorF => ConvertUnlessFault(arith.interpolate(THERMISTOR, v), 32 * 10)
    case Volts => arith.multiplyAndScale(v, 1000, 10)
    case _ => v
  }

  predicate IsJType(kind: SensorType) {
    kind == JTypeTcC || kind == JTypeTcF
  }

  /**
   A thermocouple sample (quarter degrees C) with J-type linearisation against the reference
   junction `ref`. A K-type Fahrenheit sample is converted unless it is FAULT; every type
   other than J and K passes through unchanged.
   */
  function ThermocoupleValue(arith: Arith, kind: SensorType, raw: int16, ref: int16): (r: int16)
    ensures raw == FAULT && !IsJType(kind) ==> r == FAULT
    ensures kind == KTypeTcF && raw != FAULT ==> r == ToFahrenheit(raw, 32 * 4)
    ensures !IsJType(kind) && kind != KTypeTcF ==> r == raw
  {
    var v := if IsJType(kind) then ToInt16(arith.multiplyAndScale(ToInt16(raw - ref), 25599, 15) + ref) else raw;
    if kind == KTypeTcF || kind == JTypeTcF then ConvertUnlessFault(v, 32 * 4) else v
  }

  /**
   `readSensor(s, n)`: the calibrated reading of channel `s.pin + n`, or FAULT. A negative
   channel faults; a FAULT thermocouple sample passes through unchanged except on the
   J-type path, whose linearisation is applied to it before any FAULT test.
   */
  function ReadSensor(arith: Arith, st: Store, tcTemp: seq<int16>, kFactor: uint16, s: Sensor, n: uint8): (r: int16)
    requires Valid(st) && |tcTemp| == 9
    requires Readable(s, n, kFactor)
    ensures s.pin + n < 0 ==> r == FAULT
    ensures RouteOf(s.pin, n).Tach? ==> r == TachReading(st.rpm)
    ensures RouteOf(s.pin, n).Hobbs? && st.status.hobbs <= HOBBS_MAX ==> 0 <= r <= 9999 && r == st.status.hobbs / 4
    ensures RouteOf(s.pin, n).Thermocouple? && tcTemp[RouteOf(s.pin, n).index] == FAULT && !IsJType(s.kind) ==> r == FAULT
    ensures RouteOf(s.pin, n).Thermocouple? && s.kind == KTypeTcF && tcTemp[RouteOf(s.pin, n).index] != FAULT ==>
              r == ToFahrenheit(tcTemp[RouteOf(s.pin, n).index], 32 * 4)
    ensures RouteOf(s.pin, n).Thermocouple? && !IsJType(s.kind) && s.kind != KTypeTcF ==> r == tcTemp[RouteOf(s.pin, n).index]
    ensures RouteOf(s.pin, n).Analog? && s.kind == ThermistorF && arith.interpolate(THERMISTOR, Average4(st.adcSample[RouteOf(s.pin, n).channel])) == FAULT ==> r == FAULT
    ensures RouteOf(s.pin, n).Analog? && !Transformed(s.kind) ==> r == Average4(st.adcSample[RouteOf(s.pin, n).channel])
    ensures RouteOf(s.pin, n).FuelFlow? ==> r == FlowReading(arith.multiply(st.fflowRate, 10 * 3600 / 40 / 2), kFactor)
    ensures RouteOf(s.pin, n).FuelRemaining? && 0 <= st.status.fuel < 0x2_0000 ==> 0 <= r && 4 * r <= st.status.fuel < 4 * r + 4
  {
    match RouteOf(s.pin, n)
    case Absent => FAULT
    case Hobbs => ToInt16(st.status.hobbs / 4)
    case FuelFlow => FlowReading(arith.multiply(st.fflowRate, 10 * 3600 / 40 / 2), kFactor)
    case FuelRemaining => ToInt16(st.status.fuel / 4)
    case Tach => TachReading(st.rpm)
    case Analog(c) => AnalogValue(arith, s.kind, Average4(st.adcSample[c]))
    case Thermocouple(i) => ThermocoupleValue(arith, s.kind, tcTemp[i], tcTemp[8])
  }

  /**
   The fuel-flow reading `(pulses + (kFactor >> 1)) / kFactor`: the pulse product divided
   by the k-factor and rounded to the nearest whole, halves rounding up, while the quotient
   fits in an `int`.
   */
  function FlowReading(product: int, kFactor: uint16): (r: int16)
    requires kFactor != 0
    ensures 0 <= product && (product + kFactor / 2) / kFactor < 0x8000 ==>
              0 <= r && r * kFactor <= product + kFactor / 2 < r * kFactor + kFactor
  {
    var a := product + kFactor / 2;
    var q := CDiv(a, kFactor);
    if 0 <= product && a / kFactor < 0x8000 then
      RoundedQuotient(a, kFactor, q);
      ToInt16(q)
    else
      ToInt16(q)
  }

  /** A quotient that fits in an `int` survives the narrowing and brackets the dividend between two consecutive multiples of the divisor. */
  lemma RoundedQuotient(a: int, k: int, q: int)
    requires 0 <= a && 0 < k && q == a / k && q < 0x8000
    ensures var r := ToInt16(q); 0 <= r && r * k <= a < r * k + k
  {
    assert ToInt16(q) == q;
    assert a == q * k + a % k;
  }

  /**
   Only the fuel-flow route and the transformed analog types call the arithmetic helpers:
   every other reading is the same whatever they compute.
   */
  lemma ReadingWithoutHelpers(a: Arith, b: Arith, st: Store, tcTemp: seq<int16>, kFactor: uint16, s: Sensor, n: uint8)
    requires Valid(st) && |tcTemp| == 9
    requires Readable(s, n, kFactor)
    requires var route := RouteOf(s.pin, n);
             !route.FuelFlow? && !(route.Analog? && Transformed(s.kind)) && !(route.Thermocouple? && IsJType(s.kind))
    ensures ReadSensor(a, st, tcTemp, kFactor, s, n) == ReadSensor(b, st, tcTemp, kFactor, s, n)
  {
  }

  /** The descriptor's display scaling; FAULT stays FAULT. */
  function ScaleValue(arith: Arith, s: Sensor, val: int16): (r: int16)
    ensures val == FAULT ==> r == FAULT
  {
    if val == FAULT then FAULT
    else arith.multiplyAndScale(s.vfactor, ToInt16(val + s.voffset), DIVISOR)
  }

  // ---------------------------------------------------------------------------
  // Alerts

  /** The threshold bits of a valid scaled reading: at most one low-side and one high-side bit. */
  function AlertBits(s: Sensor, v: int16): (b: bv8) {
    LowBits(s, v) | HighBits(s, v)
  }

  /** Thresholds in their configured order. */
  predicate OrderedThresholds(s: Sensor) {
    s.lowWarning <= s.lowCaution <= s.highCaution <= s.highWarning
  }

  /** The four threshold bits are non-zero and pairwise disjoint. */
  predicate SeparateBits() {
    && WARNING_LOW != 0 && CAUTION_LOW != 0 && WARNING_HIGH != 0 && CAUTION_HIGH != 0
    && WARNING_LOW & CAUTION_LOW == 0 && WARNING_LOW & WARNING_HIGH == 0 && WARNING_LOW & CAUTION_HIGH == 0
    && CAUTION_LOW & WARNING_HIGH == 0 && CAUTION_LOW & CAUTION_HIGH == 0 && WARNING_HIGH & CAUTION_HIGH == 0
  }

  /** A reading inside the caution band raises nothing. */
  lemma InBandIsClear(s: Sensor, v: int16)
    requires OrderedThresholds(s)
    requires s.lowCaution <= v <= s.highCaution
    ensures AlertBits(s, v) == 0
  {
  }

  /** The low-side bit of a reading: warning below `lowWarning`, caution up to `lowCaution`. */
  function LowBits(s: Sensor, v: int16): bv8 {
    if v < s.lowWarning then WARNING_LOW else if v < s.lowCaution then CAUTION_LOW else 0
  }

  /** The high-side bit of a reading: warning above `highWarning`, caution above `highCaution`. */
  function HighBits(s: Sensor, v: int16): bv8 {
    if v > s.highWarning then WARNING_HIGH else if v > s.highCaution then CAUTION_HIGH else 0
  }

  /**
   With separate bits, each low-side bit is raised exactly on its band, warning taking
   precedence over caution, so at most one low-side bit is set.
   */
  lemma LowAlertExact(s: Sensor, v: int16)
    requires SeparateBits()
    ensures var b := AlertBits(s, v);
            && (b & WARNING_LOW != 0 <==> v < s.lowWarning)
            && (b & CAUTION_LOW != 0 <==> s.lowWarning <= v < s.lowCaution)
            && !(b & WARNING_LOW != 0 && b & CAUTION_LOW != 0)
  {
  }

  /** The same on the high side. */
  lemma HighAlertExact(s: Sensor, v: int16)
    requires SeparateBits()
    ensures var b := AlertBits(s, v);
            && (b & WARNING_HIGH != 0 <==> v > s.highWarning)
            && (b & CAUTION_HIGH != 0 <==> s.highCaution < v <= s.highWarning)
            && !(b & WARNING_HIGH != 0 && b & CAUTION_HIGH != 0)
  {
  }

  /**
   `alertState(s, offset)`: no sensor gives 0; a scaled value of FAULT, which includes every
   FAULT reading, gives exactly the fault bit; any other scaled value gives its band bits.
   */
  function AlertState(arith: Arith, st: Store, tcTemp: seq<int16>, kFactor: uint16, s: Option<Sensor>, offset: uint8): (b: bv8)
    requires Valid(st) && |tcTemp| == 9
    requires s.Some? ==> Readable(s.value, offset, kFactor)
    ensures s.None? ==> b == 0
    ensures s.Some? && ReadSensor(arith, st, tcTemp, kFactor, s.value, offset) == FAULT ==> b == ALERT_FAULT
    ensures s.Some? ==>
              var v := ScaleValue(arith, s.value, ReadSensor(arith, st, tcTemp, kFactor, s.value, offset));
              v == FAULT ==> b == ALERT_FAULT
    ensures s.Some? && s.value.pin + offset < 0 ==> b == ALERT_FAULT
    ensures s.Some? ==>
              var v := ScaleValue(arith, s.value, ReadSensor(arith, st, tcTemp, kFactor, s.value, offset));
              v != FAULT ==> b == AlertBits(s.value, v)
  {
    match s
    case None => 0
    case Some(sensor) =>
      var v := ScaleValue(arith, sensor, ReadSensor(arith, st, tcTemp, kFactor, sensor, offset));
      if v == FAULT then ALERT_FAULT else AlertBits(sensor, v)
  }
}

=== FILE: sort.dfy ===
/**
 The `sort` routine the tachometer reading relies on. Its body is not part of this model:
 the insertion sort below is one routine that meets the contract the reading needs (the
 result is sorted and is a permutation of the input), and every property proved about
 the tachometer reading uses that contract only.
 */
module Sort {
  import opened Platform

  ghost predicate Sorted(a: seq<int16>) {
    forall i, j :: 0 <= i < j < |a| ==> a[i] <= a[j]
  }

  function Insert(x: int16, s: seq<int16>): (r: seq<int16>)
    requires Sorted(s)
    ensures Sorted(r)
    ensures multiset(r) == multiset(s) + multiset{x}
  {
    if |s| == 0 then [x]
    else if x <= s[0] then [x] + s
    else
      var t := Insert(x, s[1..]);
      assert s == [s[0]] + s[1..];
      LowerBound(s[0], x, s[1..], t);
      [s[0]] + t
  }

  /** Every element of a permutation of `rest + [x]` is at least `lo` when `x` and all of `rest` are. */
  lemma LowerBound(lo: int16, x: int16, rest: seq<int16>, t: seq<int16>)
    requires lo <= x
    requires forall k :: 0 <= k < |rest| ==> lo <= rest[k]
    requires multiset(t) == multiset(rest) + multiset{x}
    ensures forall k :: 0 <= k < |t| ==> lo <= t[k]
  {
    forall k | 0 <= k < |t|
      ensures lo <= t[k]
    {
      assert t[k] in multiset(t);
      if t[k] != x {
        assert t[k] in multiset(rest);
      }
    }
  }

  /** Sorts ascending; the result is a sorted permutation of the input. */
  function SortInts(a: seq<int16>): (r: seq<int16>)
    ensures Sorted(r)
    ensures multiset(r) == multiset(a)
    ensures |r| == |a|
  {
    if |a| == 0 then []
    else
      assert a == [a[0]] + a[1..];
      Insert(a[0], SortInts(a[1..]))
  }

  /** Sortedness follows from every neighbouring pair being in order. */
  lemma {:induction false} SortedFromNeighbours(a: seq<int16>)
    requires forall i :: 0 < i < |a| ==> a[i - 1] <= a[i]
    ensures Sorted(a)
    decreases |a|
  {
    if |a| > 1 {
      SortedFromNeighbours(a[1..]);
      forall i, j | 0 <= i < j < |a|
        ensures a[i] <= a[j]
      {
        if i > 0 {
          assert a[1..][i - 1] <= a[1..][j - 1];
        } else {
          assert a[1..][0] <= a[1..][j - 1];
        }
      }
    }
  }

  /** A multiset has exactly one sorted arrangement. */
  lemma {:induction false} SortedUnique(a: seq<int16>, b: seq<int16>)
    requires Sorted(a) && Sorted(b)
    requires multiset(a) == multiset(b)
    ensures a == b
    decreases |a|
  {
    assert |a| == |multiset(a)| == |multiset(b)| == |b|;
    if |a| > 0 {
      SameLeast(a, b);
      Tail(a);
      Tail(b);
      SortedUnique(a[1..], b[1..]);
      assert a == [a[0]] + a[1..];
      assert b == [b[0]] + b[1..];
    }
  }

  /** Two sorted arrangements of one multiset start with the same (least) element. */
  lemma SameLeast(a: seq<int16>, b: seq<int16>)
    requires Sorted(a) && Sorted(b) && |a| > 0 && |b| > 0
    requires multiset(a) == multiset(b)
    ensures a[0] == b[0]
  {
    assert a[0] in multiset(b);
    assert b[0] in multiset(a);
    var i :| 0 <= i < |b| && b[i] == a[0];
    var j :| 0 <= j < |a| && a[j] == b[0];
  }

  /** Dropping the head keeps sortedness and removes exactly the head from the contents. */
  lemma Tail(a: seq<int16>)
    requires Sorted(a) && |a| > 0
    ensures Sorted(a[1..])
    ensures multiset(a[1..]) == multiset(a) - multiset{a[0]}
  {
    assert a == [a[0]] + a[1..];
  }
}

=== FILE: store_properties.dfy ===
/**
 Properties of the sample store over several ticks and interrupts: the fuel-flow rate
 window, the k-factor fuel totaliser, the hobbs prescaler period, the tachometer ring
 and the ADC rotation.
 */
module StoreProperties {
  import opened Platform
  import opened SampleStore

  // ---------------------------------------------------------------------------
  // Fuel flow

  /** `k` fuel-flow edges in a row. */
  function FlowPulses(s: Store, k: nat, kFactor: uint16): Store
    decreases k
  {
    if k == 0 then s else FflowIRQ(FlowPulses(s, k - 1, kFactor), kFactor)
  }

  /** Fuel-flow edges move only the pulse counters, the fuel total and the dirty flag. */
  lemma {:induction false} PulsesKeepWindow(s: Store, k: nat, kFactor: uint16)
    ensures var r := FlowPulses(s, k, kFactor);
            && r.fflowRunning == ToUint16(s.fflowRunning + k)
            && r == s.(fflowCount := r.fflowCount, fflowRunning := r.fflowRunning,
                       status := s.status.(fuel := r.status.fuel), dirty := r.dirty)
    decreases k
  {
    if k > 0 {
      PulsesKeepWindow(s, k - 1, kFactor);
      var p := FlowPulses(s, k - 1, kFactor);
      ModAdd(s.fflowRunning + k - 1, 1);
    }
  }

  lemma ModAdd(a: int, b: int)
    ensures ToUint16(ToUint16(a) + b) == ToUint16(a + b)
  {
    var q := a / 0x1_0000;
    assert a == q * 0x1_0000 + ToUint16(a);
    assert ToUint16(a) + b == (a + b) - q * 0x1_0000;
  }

  /** Half a second of flow: `k` fuel-flow edges, then the periodic rate update. */
  function FlowWindow(s: Store, k: nat, kFactor: uint16): Store
    requires |s.ffRunning| == 4
  {
    PulsesKeepWindow(s, k, kFactor);
    UpdateFuelFlow(FlowPulses(s, k, kFactor))
  }

  lemma Congruent(a: int, b: int)
    requires (a - b) % 0x1_0000 == 0
    ensures ToUint16(a) == ToUint16(b)
  {
    var q := (a - b) / 0x1_0000;
    assert a == b + q * 0x1_0000;
    assert ToUint16(a) == (b + q * 0x1_0000) % 0x1_0000;
  }

  lemma DivisibleSum(a: int, b: int)
    requires a % 0x1_0000 == 0 && b % 0x1_0000 == 0
    ensures (a + b) % 0x1_0000 == 0
  {
    var qa, qb := a / 0x1_0000, b / 0x1_0000;
    assert a + b == (qa + qb) * 0x1_0000;
  }

  /** The modular bookkeeping behind the rate window, on plain integers. */
  lemma WindowArithmetic(r0: int, r1: int, r2: int, r3: int, r4: int,
                         k1: int, k2: int, k3: int, k4: int, rate: uint16)
    requires r1 == ToUint16(r0 + k1) && r2 == ToUint16(r1 + k2)
    requires r3 == ToUint16(r2 + k3) && r4 == ToUint16(r3 + k4)
    requires rate == ToUint16(r4 - r0)
    ensures rate == ToUint16(k1 + k2 + k3 + k4)
  {
    var d1, d2, d3, d4 := (r0 + k1) - r1, (r1 + k2) - r2, (r2 + k3) - r3, (r3 + k4) - r4;
    DivisibleSum(d1, d2);
    DivisibleSum(d1 + d2, d3);
    DivisibleSum(d1 + d2 + d3, d4);
    var e := r4 - r0 - rate;
    DivisibleSum(d1 + d2 + d3 + d4, e);
    var total := k1 + k2 + k3 + k4;
    assert d1 + d2 + d3 + d4 + e == total - rate;
    Congruent(total, rate);
  }

  /**
   What one window does to the rate state: the ring index moves to the next slot, the running
   count grows by the window's `k` edges (modulo 2^16), that slot takes the running count, and
   the rate is measured against the count the slot held before.
   */
  ghost predicate WindowEffect(s: Store, w: Store, k: nat) {
    && |s.ffRunning| == 4 && s.ffRunningInx < 4
    && w.ffRunningInx == (if s.ffRunningInx == 3 then 0 else s.ffRunningInx + 1)
    && w.fflowRunning == ToUint16(s.fflowRunning + k)
    && w.ffRunning == s.ffRunning[w.ffRunningInx := w.fflowRunning]
    && w.fflowRate == ToUint16(w.fflowRunning - s.ffRunning[w.ffRunningInx])
  }

  /** One window of `k` edges followed by the rate update has exactly that effect. */
  lemma WindowStep(s: Store, k: nat, kFactor: uint16)
    requires |s.ffRunning| == 4 && s.ffRunningInx < 4
    ensures WindowEffect(s, FlowWindow(s, k, kFactor), k)
  {
    PulsesKeepWindow(s, k, kFactor);
  }

  /** Four window effects in a row, starting just after a rate update, count the four windows' edges. */
  lemma FourWindowEffects(s: Store, w1: Store, w2: Store, w3: Store, w4: Store, k1: nat, k2: nat, k3: nat, k4: nat)
    requires WindowEffect(s, w1, k1) && WindowEffect(w1, w2, k2)
    requires WindowEffect(w2, w3, k3) && WindowEffect(w3, w4, k4)
    requires s.ffRunning[s.ffRunningInx] == s.fflowRunning
    ensures w4.fflowRate == ToUint16(k1 + k2 + k3 + k4) && w4.ffRunningInx == s.ffRunningInx
  {
    var i := s.ffRunningInx;
    // the slot at `i` is not overwritten until the fourth window comes back to it
    assert w1.ffRunningInx != i && w2.ffRunningInx != i && w3.ffRunningInx != i && w4.ffRunningInx == i;
    assert w3.ffRunning[i] == s.fflowRunning;
    WindowArithmetic(s.fflowRunning, w1.fflowRunning, w2.fflowRunning, w3.fflowRunning, w4.fflowRunning,
                     k1, k2, k3, k4, w4.fflowRate);
  }

  /**
   Just after a rate update, the next four windows end with a rate equal to the number
   of fuel-flow edges seen during those four windows (modulo 2^16).
   */
  lemma RateCountsLastFourWindows(s: Store, k1: nat, k2: nat, k3: nat, k4: nat, kFactor: uint16)
    requires |s.ffRunning| == 4 && s.ffRunningInx < 4
    requires s.ffRunning[s.ffRunningInx] == s.fflowRunning
    ensures var w1 := FlowWindow(s, k1, kFactor);
            var w2 := FlowWindow(w1, k2, kFactor);
            var w3 := FlowWindow(w2, k3, kFactor);
            var w4 := FlowWindow(w3, k4, kFactor);
            w4.fflowRate == ToUint16(k1 + k2 + k3 + k4) && w4.ffRunningInx == s.ffRunningInx
  {
    var w1 := FlowWindow(s, k1, kFactor);
    WindowStep(s, k1, kFactor);
    var w2 := FlowWindow(w1, k2, kFactor);
    WindowStep(w1, k2, kFactor);
    var w3 := FlowWindow(w2, k3, kFactor);
    WindowStep(w2, k3, kFactor);
    var w4 := FlowWindow(w3, k4, kFactor);
    WindowStep(w3, k4, kFactor);
    FourWindowEffects(s, w1, w2, w3, w4, k1, k2, k3, k4);
  }

  /** Below the k-factor, edges only count: fuel and the dirty flag stay as they were. */
  lemma {:induction false} PulsesBelowKFactor(s: Store, k: nat, kFactor: uint16)
    requires s.fflowCount + k < kFactor
    ensures var r := FlowPulses(s, k, kFactor);
            r.fflowCount == s.fflowCount + k && r.status == s.status && r.dirty == s.dirty
    decreases k
  {
    if k > 0 {
      PulsesBelowKFactor(s, k - 1, kFactor);
    }
  }

  /** The edge that brings the bounded counter up to the k-factor consumes one unit of fuel and restarts it. */
  lemma PulsesReachingKFactor(s: Store, kFactor: uint16)
    requires s.fflowCount < kFactor
    ensures var r := FlowPulses(s, kFactor - s.fflowCount, kFactor);
            && r.fflowCount == 0
            && r.status.fuel == (if s.status.fuel > 0 then s.status.fuel - 1 else s.status.fuel)
            && r.dirty == (s.dirty || s.status.fuel > 0)
  {
    PulsesBelowKFactor(s, kFactor - s.fflowCount - 1, kFactor);
  }

  /**
   From a cleared counter, the first `kFactor - 1` edges only count and leave fuel and the
   dirty flag alone; edge number `kFactor` takes one unit of fuel, clears the counter and
   marks the status dirty.
   */
  lemma FuelUnitPerKFactorEdges(s: Store, kFactor: uint16)
    requires s.fflowCount == 0 && s.status.fuel > 0 && !s.dirty && kFactor > 0
    ensures forall k :: 0 <= k < kFactor ==>
              var r := FlowPulses(s, k, kFactor);
              r.status.fuel == s.status.fuel && r.fflowCount == k && !r.dirty
    ensures var r := FlowPulses(s, kFactor, kFactor);
            r.status.fuel == s.status.fuel - 1 && r.fflowCount == 0 && r.dirty
  {
    forall k | 0 <= k < kFactor
      ensures var r := FlowPulses(s, k, kFactor);
              r.status.fuel == s.status.fuel && r.fflowCount == k && !r.dirty
    {
      PulsesBelowKFactor(s, k, kFactor);
    }
    PulsesReachingKFactor(s, kFactor);
  }

  // ---------------------------------------------------------------------------
  // Hobbs

  /** `k` calls of the hobbs prescaler. */
  function HobbsSteps(s: Store, k: nat): Store
    decreases k
  {
    if k == 0 then s else UpdateHobbs(HobbsSteps(s, k - 1))
  }

  /** Until the prescaler runs out, calls only count it down. */
  lemma {:induction false} HobbsCountsDown(s: Store, k: nat)
    requires k < s.hobbsCount
    ensures HobbsSteps(s, k) == s.(hobbsCount := s.hobbsCount - k)
    decreases k
  {
    if k > 0 {
      HobbsCountsDown(s, k - 1);
    }
  }

  /**
   The call that exhausts the prescaler adds exactly one hobbs tick to the persisted
   total, sets the dirty flag and reloads the prescaler with 90 calls.
   */
  lemma HobbsPeriod(s: Store)
    requires s.hobbsCount >= 1
    requires s.status.hobbs <= HOBBS_MAX
    ensures var r := HobbsSteps(s, s.hobbsCount);
            && HobbsTicks(r.status) == HobbsTicks(s.status) + 1
            && r.status.hobbs <= HOBBS_MAX && r.status.fuel == s.status.fuel
            && r.dirty && r.hobbsCount == HOBBS_COUNT_INTERVAL == 90
  {
    HobbsCountsDown(s, s.hobbsCount - 1);
    HobbsAdvanceAddsOneTick(HobbsSteps(s, s.hobbsCount - 1));
  }

  /** At the top of the low counter the next advance wraps it to zero and carries one thousand-hours unit. */
  lemma HobbsWraps(s: Store)
    requires s.hobbsCount == 1 && s.status.hobbs == 39999
    ensures UpdateHobbs(s).status == s.status.(hobbs := 0, hobbs1k := s.status.hobbs1k + 1)
    ensures UpdateHobbs(s).dirty
  {
  }

  // ---------------------------------------------------------------------------
  // Tachometer

  /** Two periodic ticks with no edge in between always leave a zeroed ring (the engine reads as stopped). */
  lemma StaleRingReset(s: Store)
    ensures var r := UpdateTach(UpdateTach(s));
            |r.rpm| == RPM_SLOTS && (forall j :: 0 <= j < RPM_SLOTS ==> r.rpm[j] == 0) && !r.tachDidPulse
  {
  }

  /** The interval each of a run of tachometer edges measures, starting from the edge time `last`. */
  function Intervals(last: uint32, times: seq<uint32>): (r: seq<uint32>)
    ensures |r| == |times|
    decreases |times|
  {
    if |times| == 0 then []
    else
      var prev := if |times| == 1 then last else times[|times| - 2];
      Intervals(last, times[..|times| - 1]) + [(times[|times| - 1] - prev) % 0x1_0000_0000]
  }

  predicate NoZeroInterval(last: uint32, times: seq<uint32>) {
    forall j :: 0 <= j < |times| ==> Intervals(last, times)[j] != 0
  }

  /** A run of tachometer edges at the given `micros()` times. */
  function TachPulses(s: Store, times: seq<uint32>): (r: Store)
    requires |s.rpm| == RPM_SLOTS
    requires NoZeroInterval(s.lastTachTime, times)
    ensures |r.rpm| == RPM_SLOTS
    ensures |times| > 0 ==> r.lastTachTime == times[|times| - 1]
    ensures |times| == 0 ==> r.lastTachTime == s.lastTachTime
    decreases |times|
  {
    if |times| == 0 then s
    else
      var init := times[..|times| - 1];
      assert Intervals(s.lastTachTime, init) == Intervals(s.lastTachTime, times)[..|times| - 1];
      var p := TachPulses(s, init);
      assert TachInterval(p, times[|times| - 1]) == Intervals(s.lastTachTime, times)[|times| - 1];
      TachIRQ(p, times[|times| - 1])
  }

  /** Slot `(base + j) % 8` lies `j` slots after `base` around the ring. */
  lemma SlotOffset(base: int, j: int)
    requires 0 <= j < 8
    ensures (((base + j) % 8) - base) % 8 == j
  {
    var q := (base + j) / 8;
    assert (base + j) % 8 - base == j - 8 * q;
  }

  lemma RingSuccessor(x: int)
    ensures (x % 8 + 1) % 8 == (x + 1) % 8
  {
    var q := x / 8;
    assert x % 8 + 1 == (x + 1) - 8 * q;
  }

  /**
   After `n` of a run of edges with readings `rpms`, starting from the ring `init` at
   index `base`: the ring index has moved `n` slots, the `n` slots from `base` on hold the
   readings in order, and every other slot is as it was.
   */
  ghost predicate RingFilled(r: Store, init: seq<int16>, base: int, rpms: seq<int16>, n: nat) {
    && |r.rpm| == RPM_SLOTS && |init| == RPM_SLOTS && n <= |rpms|
    && r.rpmInx % 8 == (base + n) % 8
    && (forall j :: 0 <= j < n ==> r.rpm[(base + j) % 8] == rpms[j])
    && (forall m :: 0 <= m < RPM_SLOTS && (m - base) % 8 >= n ==> r.rpm[m] == init[m])
  }

  lemma RingStep(p: Store, now: uint32, init: seq<int16>, base: int, rpms: seq<int16>, n: nat)
    requires n < |rpms| && n < RPM_SLOTS
    requires RingFilled(p, init, base, rpms, n)
    requires TachInterval(p, now) != 0
    requires rpms[n] == PulseRpm(TachInterval(p, now))
    ensures RingFilled(TachIRQ(p, now), init, base, rpms, n + 1)
  {
    var r := TachIRQ(p, now);
    SlotOffset(base, n);
    forall j | 0 <= j < n + 1
      ensures r.rpm[(base + j) % 8] == rpms[j]
    {
      if j < n {
        SlotOffset(base, j);
      }
    }
    RingSuccessor(base + n);
  }

  /** The RPM reading each interval of a run stands for. */
  function PulseRpms(iv: seq<uint32>): (r: seq<int16>)
    requires forall j :: 0 <= j < |iv| ==> iv[j] != 0
    ensures |r| == |iv|
  {
    seq(|iv|, j requires 0 <= j < |iv| => PulseRpm(iv[j]))
  }

  /**
   Up to eight edges fill consecutive ring slots from `rpmInx` on, each with the RPM of
   its own interval, and leave the other slots alone; after eight the ring holds exactly
   the last eight readings.
   */
  lemma {:induction false} RingHoldsLastPulses(s: Store, times: seq<uint32>)
    requires |s.rpm| == RPM_SLOTS
    requires NoZeroInterval(s.lastTachTime, times)
    requires |times| <= RPM_SLOTS
    ensures RingFilled(TachPulses(s, times), s.rpm, s.rpmInx,
                       PulseRpms(Intervals(s.lastTachTime, times)), |times|)
    decreases |times|
  {
    var iv := Intervals(s.lastTachTime, times);
    var rpms := PulseRpms(iv);
    if |times| == 0 {
      forall m | 0 <= m < RPM_SLOTS && (m - s.rpmInx) % 8 >= 0
        ensures TachPulses(s, times).rpm[m] == s.rpm[m]
      {
      }
    } else {
      var n := |times| - 1;
      var init := times[..n];
      assert Intervals(s.lastTachTime, init) == iv[..n];
      RingHoldsLastPulses(s, init);
      var p := TachPulses(s, init);
      assert PulseRpms(iv[..n]) == rpms[..n];
      assert RingFilled(p, s.rpm, s.rpmInx, rpms[..n], n);
      assert RingFilled(p, s.rpm, s.rpmInx, rpms, n);
      assert TachInterval(p, times[n]) == iv[n];
      assert TachPulses(s, times) == TachIRQ(p, times[n]);
      RingStep(p, times[n], s.rpm, s.rpmInx, rpms, n);
    }
  }

  // ---------------------------------------------------------------------------
  // ADC rotation

  /**
   Four ADC sweeps put the four readings of every channel into its four columns, one
   per column starting at `adcIndex`, and bring the column index back where it was.
   */
  lemma FourSweepsFillEveryColumn(s: Store, a: seq<int16>, b: seq<int16>, c: seq<int16>, d: seq<int16>)
    requires Valid(s)
    requires |a| == |b| == |c| == |d| == ADC_CHANNELS
    ensures var r := UpdateADC(UpdateADC(UpdateADC(UpdateADC(s, a), b), c), d);
            && Valid(r) && r.adcIndex == s.adcIndex
            && forall i :: 0 <= i < ADC_CHANNELS ==>
                 && r.adcSample[i][s.adcIndex] == a[i]
                 && r.adcSample[i][(s.adcIndex + 1) % 4] == b[i]
                 && r.adcSample[i][(s.adcIndex + 2) % 4] == c[i]
                 && r.adcSample[i][(s.adcIndex + 3) % 4] == d[i]
  {
    var s1 := UpdateADC(s, a);
    var s2 := UpdateADC(s1, b);
    var s3 := UpdateADC(s2, c);
    var s4 := UpdateADC(s3, d);
    assert s2.adcIndex == (s.adcIndex + 2) % 4;
    assert s3.adcIndex == (s.adcIndex + 3) % 4;
  }
}
